=== FILE: README.md ===
# Shop seed commands, sale snapshot and sign-up policy, in Dafny

This project models the core of a Django furniture shop backend:

- **Sign-up** (`mysite/myauth/views.py`, `SignUpView.post`). The password
  is matched against `^(?=.*[a-z])(?=.*[A-Z])(?=.*\d)[A-Za-z\d]{8,}$` with
  Python's `re.match`. Only then are a `User` and its `Profile` created,
  one after the other. A rejected password, an empty or taken username
  and a missing name are all answered with status 500; a missing name
  fails only after the user is stored, which stays. A variant run as one
  transaction is modelled beside the view. The regular expression is
  written down directly from its parts (look-aheads that cannot cross a newline, a repetition, `$`), and
  the computed check is proved to accept exactly the same passwords
  (`SignUp`).
- **The category seed command** (`upload_categories_to_db.py`). It
  creates one `Category` per title of its context and, under each, one
  `Subcategory` per listed title. Every row gets the image its title
  resolves to: the first image whose normalised file name contains the
  normalised title, among the images whose path contains "Категория"
  (or "Подкатегория"), ignoring case (`SeedCategories`).
- **The product seed command** (`create_product` in
  `upload_products_to_db.py`). For each record it:
  - looks up the subcategory with `.get`;
  - resolves the image by title;
  - creates the `Product` and attaches the image;
  - attaches tags and specifications, reusing the first existing row with
    the same key and creating the missing ones.

  Tags come as a comma-separated string or a list. Specifications come as a
  string of `name-value` items or a dict (`SeedProducts`).
- **`ProductSale.save`** (`models.py`). It snapshots the product's price,
  title and images into the sale and puts the sale price on the product.
  `image_directory_path` is modelled as well (`Models`).

Shared pieces:

- `Text`: Python's `split`, `join`, `lower` and `in` on strings.
- `Tables`: get-or-create on a table whose rows are identified by position.
- `ImageIndex`: `get_image_index` and the image lists built before it is
  called.

Tables are sequences indexed by row id. Row ids start at 0 in the model.
The seed commands' mutable state is the `Database` class. Its tag,
specification, category and subcategory tables are fields that the
methods extend. Products and sales are classes whose fields the methods
assign.

## Model

| member | source | states |
|---|---|---|
| Text.Join | mysite/myshop/management/commands/upload_products_to_db.py:22 | `sep.join(pieces)`: the pieces with `sep` between each two; a definition without a contract of its own, tied to `split` by Text.JoinSplit and Text.SplitJoin |
| Text.Split | mysite/myshop/management/commands/upload_products_to_db.py:67 | `s.split(sep)` yields one more piece than there are separators, and no piece holds the separator |
| Text.JoinSplit | mysite/myshop/management/commands/upload_products_to_db.py:22 | joining the pieces of a split with the same separator gives the string back |
| Text.SplitJoin | mysite/myshop/management/commands/upload_products_to_db.py:67 | splitting separator-free pieces joined by that separator gives the pieces back |
| Text.Replace | mysite/myshop/management/commands/upload_products_to_db.py:22 | the reference for joining split pieces: the result has the input's length, and each character equal to `a` becomes `b` while every other character stays |
| Text.JoinSplitIsReplace | mysite/myshop/management/commands/upload_products_to_db.py:22 | `b.join(s.split(a))` replaces every `a` by `b` and changes nothing else |
| Text.OccurrencesPositive | mysite/myshop/management/commands/upload_products_to_db.py:80 | a character is counted a positive number of times exactly when it is in the string |
| Text.Lower | mysite/myshop/management/commands/upload_products_to_db.py:22 | `s.lower()`: the same length as `s`; no upper-case letter of A-Z, А-Я or Ѐ-Џ is left; every other character stays unchanged in its place |
| Text.LowerAppend | mysite/myshop/management/commands/upload_categories_to_db.py:57 | lower-casing works piece by piece on a concatenation |
| Text.Contains | mysite/myshop/management/commands/upload_products_to_db.py:22 | `needle in hay`: holds exactly when `needle` occurs in `hay` at some position; a definition, with Text.ContainsTransitive about it |
| Text.ContainsTransitive | mysite/myshop/management/commands/upload_categories_to_db.py:57 | a substring of a substring is a substring |
| Models.ImageDirectoryPath | mysite/myshop/models.py:11-14 | `f"images/{filename}"`, whatever the instance; a definition without a contract of its own, whose meaning Models.UploadPathKeepsFileName states |
| Models.UploadPathKeepsFileName | mysite/myshop/models.py:11-14 | for a file name without `/`, the last path component of the upload path is that file name, and the path is the same whatever the instance |
| Models.FileName | mysite/myshop/management/commands/upload_products_to_db.py:37 | the file name of a stored path holds no `/` |
| Models.Product.constructor | mysite/myshop/management/commands/upload_products_to_db.py:48-57 | `Product.objects.create` stores the given field values, and the image, tag and specification relations start empty |
| Models.ProductSale.constructor | mysite/myshop/models.py:149-171 | a sale before its first save holds the given fields, no images, and is not stored yet |
| Models.ProductSale.Save | mysite/myshop/models.py:173-197 | `price`, `title` and `images` become the product's current ones; the product's price becomes `salePrice`; no other field of the product or the sale changes |
| Models.SaveTwice | mysite/myshop/models.py:173-197 | after two saves of a sale, its `price` equals its `salePrice`, so the price before the sale is lost |
| Models.ProductSale.SaveSnapshotOnCreate | mysite/myshop/models.py:173-197 | the snapshot is taken only on the first save; later saves keep it; every save puts `salePrice` on the product |
| Models.SaveTwiceKeepsSnapshot | mysite/myshop/models.py:173-197 | with the snapshot taken on creation only, a new sale saved twice still holds the product's price, title and images from before the sale |
| Tables.FirstIndex | mysite/myshop/management/commands/upload_products_to_db.py:70-71 | `filter(name=tag)[0]` on a table read in id order is a row holding the key |
| Tables.FirstIndexIsFirst | mysite/myshop/management/commands/upload_products_to_db.py:70-71 | no row before the one found holds the key |
| Tables.Insert | mysite/myshop/management/commands/upload_products_to_db.py:70-73 | one get-or-create: a key already in the table leaves it unchanged, a new key is appended; a definition, which Tables.Registered applies key by key |
| Tables.Registered | mysite/myshop/management/commands/upload_products_to_db.py:69-75 | get-or-create over a key list keeps the existing rows as they were, and the table afterwards holds exactly the old keys and the new ones |
| Tables.FirstIndexStable | mysite/myshop/management/commands/upload_products_to_db.py:70-73 | creating rows never changes which row an existing key resolves to |
| Tables.RegisteredReuses | mysite/myshop/management/commands/upload_products_to_db.py:70-71 | a key that already had a row keeps resolving to that row |
| Tables.RegisteredNothingNew | mysite/myshop/management/commands/upload_products_to_db.py:69-75 | when every key exists, no row is created |
| Tables.RegisteredCreatesEachNewKeyOnce | mysite/myshop/management/commands/upload_products_to_db.py:69-75 | the rows created hold only keys that had no row, each created once |
| Tables.RegisteredAppend | mysite/myshop/management/commands/upload_products_to_db.py:43-75 | registering two key lists in turn is registering their concatenation |
| Tables.RowIds | mysite/myshop/management/commands/upload_products_to_db.py:69-75 | the ids a many-to-many relation holds after `add` of each key's first row: each is a row id of the table; Tables.RowIdsAreFirstRowsOfKeys characterises the set |
| Tables.RowIdsAreFirstRowsOfKeys | mysite/myshop/management/commands/upload_products_to_db.py:69-75 | the ids attached for a key list are exactly the rows that hold one of the keys and are the first row holding it |
| Tables.RowIdsStable | mysite/myshop/management/commands/upload_products_to_db.py:69-75 | rows created later do not change which rows a key list resolves to |
| Tables.RowIdsExtend | mysite/myshop/management/commands/upload_products_to_db.py:69-75 | one more key adds exactly that key's first row to the attached ids |
| ImageIndex.NormalizeName | mysite/myshop/management/commands/upload_products_to_db.py:22 | `' '.join(name.split('-')).lower()`; a definition without a contract of its own, shown by ImageIndex.NormalizeNameReplacesDashes to replace `-` by a space and lower-case |
| ImageIndex.NormalizeNameReplacesDashes | mysite/myshop/management/commands/upload_products_to_db.py:22 | the normalised name is the name with every `-` made a space, lower-cased |
| ImageIndex.NormalizeFileName | mysite/myshop/management/commands/upload_products_to_db.py:37 | `' '.join(file_name.split('_')).lower()`; a definition without a contract of its own, shown by ImageIndex.NormalizeFileNameReplacesUnderscores to replace `_` by a space and lower-case |
| ImageIndex.NormalizeFileNameReplacesUnderscores | mysite/myshop/management/commands/upload_products_to_db.py:36-39 | the normalised file name is the file name with every `_` made a space, lower-cased |
| ImageIndex.FirstContaining | mysite/myshop/management/commands/upload_products_to_db.py:21-23 | a position found is a position of the list; ImageIndex.FirstContainingIsFirst proves it is the first entry holding the needle |
| ImageIndex.FirstContainingIsFirst | mysite/myshop/management/commands/upload_products_to_db.py:21-23 | the position found holds the needle and none before it does; none is found only when no entry holds it |
| ImageIndex.FirstMatch | mysite/myshop/management/commands/upload_products_to_db.py:12-23 | what `get_image_index(name, list)` returns: a position of the list when any; ImageIndex.GetImageIndex proves the loop returns it |
| ImageIndex.GetImageIndex | mysite/myshop/management/commands/upload_products_to_db.py:12-23 | the loop returns the first index whose name contains the normalised name, and `None` when there is none |
| ImageIndex.IContains | mysite/myshop/management/commands/upload_categories_to_db.py:57 | `src__icontains=marker`: the marker occurs in the path once both are lower-cased; a definition, see the ImageIndex.IContains line under "## Left out" |
| ImageIndex.ImagesContaining | mysite/myshop/management/commands/upload_categories_to_db.py:57 | `Image.objects.filter(src__icontains=marker)`: every id selected is an image id; ImageIndex.ImagesContainingSelects proves the selection is exact and in id order |
| ImageIndex.ImagesContainingSelects | mysite/myshop/management/commands/upload_categories_to_db.py:57 | `filter(src__icontains=marker)` keeps exactly the images whose path contains the marker ignoring case, each once, in id order |
| ImageIndex.ImageNamesAsWritten | mysite/myshop/management/commands/upload_products_to_db.py:36-39 | the names list as the code is written: `image.get_filename()` is defined nowhere, so the list is built only when there is no image; a definition without a contract of its own, whose failure ImageIndex.ImageNamesAsWrittenFailOnAnyImage states |
| ImageIndex.ImageNamesAsWrittenFailOnAnyImage | mysite/myshop/management/commands/upload_products_to_db.py:35-39 | as written, the names list fails exactly when the queryset is non-empty: for the product command whenever the image table has a row, for the category command whenever an image path contains the marker |
| ImageIndex.AllImages | mysite/myshop/management/commands/upload_products_to_db.py:35 | `Image.objects.all()`: every id listed is an image id, every image id is listed, and the ids strictly increase, so each appears once, in id order |
| ImageIndex.ImageNames | mysite/myshop/management/commands/upload_products_to_db.py:36-39 | one normalised name per selected image, in the same order |
| ImageIndex.ImageFor | mysite/myshop/management/commands/upload_products_to_db.py:45-46 | the image a name resolves to is an image id; ImageIndex.ImageForMatches proves it is the first selected image whose normalised file name contains the name |
| ImageIndex.ImageForMatches | mysite/myshop/management/commands/upload_products_to_db.py:45-46 | a name resolves to the first selected image whose normalised file name contains it, and to none only when no selected image matches |
| ImageIndex.PickImage | mysite/myshop/management/commands/upload_products_to_db.py:45-46 | indexing the queryset with the position found gives the image the name resolves to |
| ImageIndex.LowerCategoryWordIgnoresInitialCase | mysite/myshop/management/commands/upload_categories_to_db.py:57 | lower-cased, "категория" equals "Категория" |
| ImageIndex.CategoryMarkerInsideSubcategoryMarker | mysite/myshop/management/commands/upload_categories_to_db.py:57-63 | lower-cased, "Категория" occurs inside "Подкатегория" at position 3 |
| ImageIndex.SubcategoryImagesPassCategoryFilter | mysite/myshop/management/commands/upload_categories_to_db.py:57-63 | every path the subcategory filter keeps also passes the category filter |
| SeedCategories.CategoryImageIds | mysite/myshop/management/commands/upload_categories_to_db.py:57 | `Image.objects.filter(src__icontains='Категория')` as image ids: each selected id is an image id; ImageIndex.ImagesContainingSelects proves the selection is exact |
| SeedCategories.CategoryImage | mysite/myshop/management/commands/upload_categories_to_db.py:57-75 | the image a category title resolves to among the "Категория" images is an image id; SeedCategories.CategoryImageMatches states what it matches |
| SeedCategories.CategoryImageMatches | mysite/myshop/management/commands/upload_categories_to_db.py:57-61 | a category title's image has "Категория" in its path and a file name containing the title |
| SeedCategories.SubcategoryImageIds | mysite/myshop/management/commands/upload_categories_to_db.py:63 | `Image.objects.filter(src__icontains='Подкатегория')` as image ids: each selected id is an image id; ImageIndex.ImagesContainingSelects proves the selection is exact |
| SeedCategories.SubcategoryImage | mysite/myshop/management/commands/upload_categories_to_db.py:63-86 | the image a subcategory title resolves to among the "Подкатегория" images is an image id; SeedCategories.SubcategoryImageMatches states what it matches |
| SeedCategories.SubcategoryImageMatches | mysite/myshop/management/commands/upload_categories_to_db.py:63-67 | a subcategory title's image has "Подкатегория" in its path and a file name containing the title |
| SeedCategories.SubcategoryImagesAreCategoryImages | mysite/myshop/management/commands/upload_categories_to_db.py:57-67 | every subcategory image is also among the category images |
| SeedCategories.CategoryRows | mysite/myshop/management/commands/upload_categories_to_db.py:69-77 | one category row per context entry |
| SeedCategories.SubcategoryRows | mysite/myshop/management/commands/upload_categories_to_db.py:69-88 | one subcategory row per subcategory title of the context |
| SeedCategories.SubcategoryRowAt | mysite/myshop/management/commands/upload_categories_to_db.py:80-88 | subcategory `j` of entry `k` has its title, entry `k`'s category as parent and its own image, and sits after the earlier entries' subcategories |
| SeedCategories.SubcategoryParentIsItsCategory | mysite/myshop/management/commands/upload_categories_to_db.py:81-84 | every subcategory created points at the category created for its own entry |
| SeedCategories.AddSubcategories | mysite/myshop/management/commands/upload_categories_to_db.py:80-88 | the inner loop appends one row per title, with the parent and the resolved image, in order |
| SeedCategories.AddCategory | mysite/myshop/management/commands/upload_categories_to_db.py:69-88 | one pass appends the category with its image, then its subcategories under the new category's id |
| SeedCategories.AddEntries | mysite/myshop/management/commands/upload_categories_to_db.py:69-88 | the loop appends every entry's category and subcategory rows, in context order |
| SeedCategories.UploadCategories | mysite/myshop/management/commands/upload_categories_to_db.py:27-88 | `handle` appends exactly the rows the context describes to the two tables |
| SeedProducts.TagNames | mysite/myshop/management/commands/upload_products_to_db.py:65-67 | the names the tag loop runs over: a string split at `,`, a list as given; a definition, with SeedProducts.TagTextSplitsAtCommas and SeedProducts.TagTextOfJoinedNames about it |
| SeedProducts.TagTextSplitsAtCommas | mysite/myshop/management/commands/upload_products_to_db.py:65-67 | a tag string is cut at every comma: one more name than commas, none with a comma, nothing trimmed |
| SeedProducts.TagTextOfJoinedNames | mysite/myshop/management/commands/upload_products_to_db.py:65-67 | comma-free names written as one comma-separated string give the same tag names as the list |
| SeedProducts.SpecItem | mysite/myshop/management/commands/upload_products_to_db.py:80 | `(item.split('-')[0], item.split('-')[1])`, failing when there is no second part; a definition, with SeedProducts.SpecItemFailsWithoutDash and SeedProducts.SpecItemParts about it |
| SeedProducts.SpecItemFailsWithoutDash | mysite/myshop/management/commands/upload_products_to_db.py:79-82 | an item fails exactly when it holds no `-` |
| SeedProducts.SpecItemParts | mysite/myshop/management/commands/upload_products_to_db.py:80 | a parsed item is the text before the first `-` and the text up to the next `-` or the end |
| SeedProducts.ItemPairs | mysite/myshop/management/commands/upload_products_to_db.py:79-81 | the pairs of the items of a specification string in order: when they parse there is one pair per item; SeedProducts.ItemPairsParseEachItem says when they fail and which pair comes from which item |
| SeedProducts.ItemPairsParseEachItem | mysite/myshop/management/commands/upload_products_to_db.py:79-82 | the items parse unless one lacks a `-`, and each pair comes from its own item |
| SeedProducts.ParseSpecifications | mysite/myshop/management/commands/upload_products_to_db.py:78-82 | the dict comprehension over a specification string, `None` when an item fails; a definition, with SeedProducts.ItemPairsParseEachItem and the dict lemmas about its parts |
| SeedProducts.DictFrom | mysite/myshop/management/commands/upload_products_to_db.py:79-82 | the dict the comprehension builds from the pairs in order; a definition, whose keys and values SeedProducts.DictFromKeysInFirstOrder, SeedProducts.DictFromKeysDistinct and SeedProducts.DictFromLastValueWins state |
| SeedProducts.DictPut | mysite/myshop/management/commands/upload_products_to_db.py:79-82 | one assignment `d[name] = value` of the comprehension on a dict kept as its item list; a definition, with SeedProducts.KeysOfDictPut, SeedProducts.DictPutHoldsValue and SeedProducts.DictPutKeepsOthers about it |
| SeedProducts.KeysOfDictPut | mysite/myshop/management/commands/upload_products_to_db.py:79-82 | a dict assignment adds the key unless it is already there |
| SeedProducts.DictFromKeysInFirstOrder | mysite/myshop/management/commands/upload_products_to_db.py:79-82 | the comprehension's keys are the item names in order of first appearance |
| SeedProducts.DictFromKeysDistinct | mysite/myshop/management/commands/upload_products_to_db.py:79-82 | no key occurs twice in the dict |
| SeedProducts.DictPutHoldsValue | mysite/myshop/management/commands/upload_products_to_db.py:79-82 | after an assignment the key holds the assigned value |
| SeedProducts.DictPutKeepsOthers | mysite/myshop/management/commands/upload_products_to_db.py:79-82 | an assignment leaves every other key where it was and with its value |
| SeedProducts.DictFromLastValueWins | mysite/myshop/management/commands/upload_products_to_db.py:79-82 | every key of the dict holds the value of the last item with that name |
| SeedProducts.SpecPairs | mysite/myshop/management/commands/upload_products_to_db.py:77-84 | the pairs the specification loop runs over: a dict's items in order, or a string's parsed dict (no pairs when it does not parse, see "## Left out") |
| SeedProducts.SubcategoriesTitled | mysite/myshop/management/commands/upload_products_to_db.py:44 | `filter(title=...)` as subcategory ids in id order, each an id of the table; SeedProducts.SubcategoriesTitledSelects proves the selection is exact |
| SeedProducts.SubcategoriesTitledSelects | mysite/myshop/management/commands/upload_products_to_db.py:44 | the title filter keeps every subcategory with the title and no other |
| SeedProducts.GetFindsTheOnlyTitledRow | mysite/myshop/management/commands/upload_products_to_db.py:44 | when `.get` succeeds, its row has the title and is the only one that does |
| SeedProducts.Creatable | mysite/myshop/management/commands/upload_products_to_db.py:44-82 | a record the command does not fail on: `.get` finds exactly one subcategory, the title resolves to an image, and a specification string parses; a predicate used as the precondition of the product methods |
| SeedProducts.Describes | mysite/myshop/management/commands/upload_products_to_db.py:48-96 | a product row is the one made from its record: the record's fields, the titled subcategory, the one image its title resolves to, every tag and pair registered, and the tag and specification ids the names and pairs resolve to; the predicate SeedProducts.CreateProduct and SeedProducts.CreateProducts establish |
| SeedProducts.GetOrCreateTag | mysite/myshop/management/commands/upload_products_to_db.py:70-73 | reuse the first tag with the name or append one; the id returned holds the name |
| SeedProducts.GetOrCreateSpecification | mysite/myshop/management/commands/upload_products_to_db.py:85-95 | reuse the first specification with the pair or append one; the id returned holds the pair |
| SeedProducts.AddTags | mysite/myshop/management/commands/upload_products_to_db.py:69-75 | the tag loop registers the names in order and adds the rows they resolve to to the product's tags |
| SeedProducts.AddSpecifications | mysite/myshop/management/commands/upload_products_to_db.py:84-96 | the specification loop registers the pairs in order and adds their rows to the product |
| SeedProducts.NewProduct | mysite/myshop/management/commands/upload_products_to_db.py:44-59 | the new product has the record's fields, the subcategory titled as the record says, and the image its title resolves to |
| SeedProducts.CreateProduct | mysite/myshop/management/commands/upload_products_to_db.py:43-98 | one pass creates a product described by its record and grows the tag and specification tables by get-or-create |
| SeedProducts.RecordDone | mysite/myshop/management/commands/upload_products_to_db.py:43-98 | after one more record, the tables are the registration of all records so far and every product is still described by them |
| SeedProducts.CreateNext | mysite/myshop/management/commands/upload_products_to_db.py:43-98 | one pass keeps the loop's state: the tables and the products so far agree with the records done |
| SeedProducts.CreateProducts | mysite/myshop/management/commands/upload_products_to_db.py:26-98 | `create_product` makes one new product per record, each with its record's fields, subcategory, image, and the tag and specification rows its names and pairs resolve to; the tables grow by get-or-create over all records in turn |
| SignUp.Body | mysite/myauth/views.py:85 | the part the repetition must cover is the password, or the password without one final newline |
| SignUp.PasswordAccepted | mysite/myauth/views.py:85-93 | `re.match(pattern, password) is not None`, computed: the password without one final newline has at least 8 characters, all from `[A-Za-z\d]`, with a lower-case letter, an upper-case letter and a digit; a definition, proved to accept exactly what the regular expression matches by SignUp.PasswordAcceptedMatchesPattern |
| SignUp.MatchesPattern | mysite/myauth/views.py:85-93 | `re.match` of the pattern written down from its parts: each look-ahead finds its class before the first newline, and `[A-Za-z\d]{8,}` runs from the start to the end or to one final newline; a definition, the reference SignUp.PasswordAcceptedMatchesPattern compares the computed check with |
| SignUp.PasswordAcceptedMatchesPattern | mysite/myauth/views.py:85-93 | the computed check accepts exactly the passwords the regular expression matches |
| SignUp.AcceptedPasswordShape | mysite/myauth/views.py:85 | an accepted password has at least 8 characters from `[A-Za-z\d]` (plus at most one final newline), and a lower-case letter, an upper-case letter and a digit |
| SignUp.WellFormedPasswordAccepted | mysite/myauth/views.py:85 | a newline-free password of that shape is accepted |
| SignUp.ShortPasswordRejected | mysite/myauth/views.py:85 | "short1" is rejected |
| SignUp.StrongPasswordAccepted | mysite/myauth/views.py:85 | "Str0ngPass" is accepted |
| SignUp.OneTrailingNewlineAccepted | mysite/myauth/views.py:85 | `$` lets one trailing newline through |
| SignUp.TwoTrailingNewlinesRejected | mysite/myauth/views.py:85 | two trailing newlines are rejected |
| SignUp.ScriptsOfPasswords | mysite/myauth/views.py:85 | Cyrillic letters are rejected, and a non-ASCII decimal digit counts as `\d` |
| SignUp.SignUpPost | mysite/myauth/views.py:87-112 | status 200 exactly when the password is accepted, the username is non-empty and free once NFKC-normalised, and a name is given. Whenever the password is accepted and the username is non-empty and free, one user is appended under the next id and the normalised username, and the next id moves on; the users change in no other case. With a name, its profile is added too and the user is logged in. Otherwise the status is 500 and nobody is logged in: a rejected password or a taken username changes nothing and is answered with the error text; an empty username changes nothing and gets Django's error page with no JSON body; a missing name leaves the new user stored without a profile |
| SignUp.SignUpKeepsConsistent | mysite/myauth/views.py:99-104 | sign-up keeps user ids and normalised usernames unique and below the next id, every profile owned by an existing user, and at most one profile per user, whatever the outcome |
| SignUp.MissingNameLeavesUserWithoutProfile | mysite/myauth/views.py:88-104 | a body without "name" and with an acceptable password and a free username is answered 500, yet the username is now taken and that user has no profile |
| SignUp.SignUpPostAtomic | mysite/myauth/views.py:99-104 | the same response as the view; on any failure the tables are as before and nobody is logged in |
| SignUp.AtomicSignUpKeepsEveryUserProfiled | mysite/myauth/views.py:99-104 | run as one transaction, sign-up keeps the tables consistent and keeps every user with a profile |
| SignUp.AccountsNeedAcceptedPassword | mysite/myauth/views.py:92-104 | a user is only created for a non-empty username and a password that passed the policy, hence of at least 8 characters, and then as one user under the normalised username; a profile is only created when a name was given, together with that user, owned by it and holding the name |

## Left out

- Logging in and the session are modelled only as the id of the user logged in. Password hashing, the request parsing and the JSON body are left out.
- SignUp.SignUpPost: a missing `password` (`None`, which makes `re.match` raise `TypeError` and the request fail without a body) is not modelled; the password is a string. A missing `username` behaves like the empty one, which `create_user` refuses with `ValueError`; both are the empty string here.
- SignUp.SignUpPost: `normalize_username` applies Unicode NFKC. Normalisation is not modelled; it is the parameter `nfkc`, and the lemmas hold for every such function.
- SignUp.SignUpPost: the `IntegrityError` texts come from the database driver, so they are parameters.
- SignUp.SignUpPost: a username longer than the 150 characters of Django's `User.username` is accepted. SQLite does not enforce the length; on PostgreSQL `create_user` fails with `DataError`, which the view does not catch, so the request ends in a server error with no JSON body and no user.
- SignUp.SignUpPost: a name longer than the 20 characters of `fullName` is accepted. SQLite does not enforce the length; on PostgreSQL the insert fails with `DataError`, which the view does not catch.
- SignUp.SignUpPost: the project settings are not part of this model. The view is modelled with Django's default autocommit, without `ATOMIC_REQUESTS`, so each insert is kept as soon as it is made.
- SignUp.IsNonAsciiDigit: `\d` is matched against the decimal digits of Unicode 15.0, which Unicode 15.1 leaves unchanged: the tables of Python 3.12 and 3.13. Earlier versions lack some of these digits, and Python 3.14 (Unicode 16.0) has more.
- Crash paths of the seed commands are preconditions, because the command stops with an exception there:
  - a title that matches no image (indexing with `None`);
  - a `.get` that finds no subcategory or several;
  - a specification item without `-`;
  - an image put on two categories or two subcategories (the one-to-one `image` field).

  Partial writes before such a crash are not modelled.
- SeedCategories.UploadCategories: the `max_length` of 20 on category and subcategory titles (mysite/myshop/models.py:59) is not modelled; rows are appended whatever their length. The command's own data breaks it: "Кровати с подъемным механизмом" has 30 characters and "Кровати в мягкой обивке" 23. SQLite does not enforce the length. On PostgreSQL the insert fails with `DataError`, which stops the command; the rows written before it stay, and those partial writes are not modelled.
- SeedProducts.CreateProducts: the `max_length` limits are not modelled: product title 20 and description 30 (mysite/myshop/models.py:115-116), tag name 20 (:88), specification name and value 30 each (:97-98). Rows are appended whatever their length. The command's own data breaks them: the descriptions at upload_products_to_db.py:113 and :134 have 55 and 69 characters. SQLite does not enforce the length. On PostgreSQL the insert fails with `DataError`, which stops the command; the rows written before it stay, and those partial writes are not modelled.
- SeedProducts.SpecPairs: a specification string that does not parse gives no pairs. The command fails before using any pair, and `Creatable` rules this case out.
- Text.Lower: `str.lower()` is modelled for ASCII and Cyrillic U+0400–U+042F, the scripts the data uses. Other scripts are left unchanged.
- ImageIndex.IContains: `icontains` is modelled as a comparison of lower-cased strings. On SQLite the database lowers ASCII letters only; this model lowers Cyrillic as well, which is what a Unicode-aware database does.
- Models.FileName: `image.get_filename()` is not defined (see Findings). The corrected model reads it as the last `/`-separated component of the stored path.
- ImageIndex.AllImages, ImageIndex.ImagesContaining and Tables.FirstIndex: the querysets have no `order_by` and the models no `Meta.ordering`, so SQL leaves the row order open. The model assumes id order.
- Prices and ratings are whole cents and whole tenths. Conversion of `Decimal` from Python floats, and the validators (minimum price, rating from 0 to 5), are not modelled.
- Product `date` (`auto_now_add`), `dateFrom`/`dateTo` as clocks, and `Review` are not modelled. The dates are plain integers.
- The seed commands' literal contexts are arguments. A dict given as `specifications` is its item list, with string values. The integer values in the source's data are stored as strings by the `CharField`, so they are given as strings. Its keys are assumed distinct, as a dict's are, but that is not enforced.
- Row ids are positions in the tables, starting at 0. Django starts at 1; nothing here depends on the offset.
- The product table itself is not a field of `Database`. The products created are returned in creation order. The final `product_obj.save()` writes nothing new, so it is a no-op here.
- Category and subcategory creation followed by `save()` with the image is modelled as one append of the finished row.
- The other views, serializers, admin classes and the `upload_images_to_db`, `create_user` and profile commands are not part of this model.

## Findings

| source | as written | input that shows it | evidently intended | confidence | as-written member | corrected member |
|---|---|---|---|---|---|---|
| mysite/myshop/models.py:173-197 | every `save` re-reads the product and copies its current price into the sale's `price`, after the first save has already put `salePrice` on the product | a product priced 100.00 put on sale at 80.00, and the sale saved a second time (any admin edit): `price` becomes 80.00 and the original 100.00 is lost | the docstring says the old price, title and images are taken from the product when the sale is created, so later saves should keep them | medium; not executed | Models.SaveTwice | Models.SaveTwiceKeepsSnapshot |
| mysite/myauth/views.py:99-104 | `create_user` stores the user, then `Profile.objects.create` runs; when the profile fails, nothing removes the user | a body with "username" "anna" and password "Str0ngPass" but no "name": `fullName` is NOT NULL (mysite/myshop/models.py:42), the profile insert raises `IntegrityError` and the answer is 500, but "anna" stays registered without a profile, and every retry is refused as a taken username | a failed sign-up leaves no account, as a transaction around both inserts would ensure | medium; not executed (assumes `ATOMIC_REQUESTS` is off) | SignUp.MissingNameLeavesUserWithoutProfile | SignUp.AtomicSignUpKeepsEveryUserProfiled |
| mysite/myshop/management/commands/upload_products_to_db.py:36-39 | the names list calls `image.get_filename()`, which neither `Image` nor Django's `Model` defines (the same call is at upload_categories_to_db.py:59 and :65) | any image row, such as one `upload_images_to_db` adds: the first element raises `AttributeError` and the command stops before creating anything | each image's file name, with `_` made a space and lower-cased | high; not executed | ImageIndex.ImageNamesAsWrittenFailOnAnyImage | ImageIndex.ImageForMatches |

=== FILE: image_index.dfy ===
/**
 * Matching seed names to image files, shared by both seed commands
 * (`get_image_index` is the same function in upload_products_to_db.py and
 * upload_categories_to_db.py).
 *
 * Image file names are normalised `_` -> space and lower-cased; a product or
 * category name is normalised `-` -> space and lower-cased; the image is the
 * first whose normalised file name contains the normalised name.
 */
module ImageIndex {
  import opened Wrappers
  import opened Text
  import opened Models

  /** `' '.join(name.split("-")).lower()`. */
  function NormalizeName(name: string): string
  {
    Lower(Join(Split(name, '-'), ' '))
  }

  /** Normalising a name replaces every `-` by a space, then lower-cases. */
  lemma NormalizeNameReplacesDashes(name: string)
    ensures NormalizeName(name) == Lower(Replace(name, '-', ' '))
  {
    JoinSplitIsReplace(name, '-', ' ');
  }

  /** `' '.join(image.get_filename().split('_')).lower()`. */
  function NormalizeFileName(fileName: string): string
  {
    Lower(Join(Split(fileName, '_'), ' '))
  }

  /** Normalising a file name replaces every `_` by a space, then lower-cases. */
  lemma NormalizeFileNameReplacesUnderscores(fileName: string)
    ensures NormalizeFileName(fileName) == Lower(Replace(fileName, '_', ' '))
  {
    JoinSplitIsReplace(fileName, '_', ' ');
  }

  /** Position of the first entry of `names` that contains `needle`. */
  function FirstContaining(names: seq<string>, needle: string): (r: Option<nat>)
    ensures r.Some? ==> r.value < |names|
  {
    if names == [] then None
    else if Contains(names[0], needle) then Some(0)
    else
      match FirstContaining(names[1..], needle)
      case None => None
      case Some(i) => Some(i + 1)
  }

  /**
   * `FirstContaining` finds an entry containing the needle with none before
   * it, and finds nothing only when no entry contains the needle.
   */
  lemma {:induction false} FirstContainingIsFirst(names: seq<string>, needle: string)
    ensures FirstContaining(names, needle).Some? ==>
      && Contains(names[FirstContaining(names, needle).value], needle)
      && forall j :: 0 <= j < FirstContaining(names, needle).value ==> !Contains(names[j], needle)
    ensures FirstContaining(names, needle).None? ==>
      forall j :: 0 <= j < |names| ==> !Contains(names[j], needle)
  {
    if names != [] && !Contains(names[0], needle) {
      FirstContainingIsFirst(names[1..], needle);
      forall j | 1 <= j < |names|
        ensures names[j] == names[1..][j - 1]
      {
      }
    }
  }

  /** What `get_image_index(name, names)` returns. */
  function FirstMatch(name: string, names: seq<string>): (r: Option<nat>)
    ensures r.Some? ==> r.value < |names|
  {
    FirstContaining(names, NormalizeName(name))
  }

  /**
   * `get_image_index(name, list)`: the loop over the indices with an early
   * return; falling off the loop returns `None`.
   */
  method GetImageIndex(name: string, list: seq<string>) returns (r: Option<nat>)
    ensures r.Some? ==> r.value < |list| && Contains(list[r.value], Lower(Replace(name, '-', ' ')))
    ensures r.Some? ==> forall j :: 0 <= j < r.value ==> !Contains(list[j], Lower(Replace(name, '-', ' ')))
    ensures r.None? ==> forall j :: 0 <= j < |list| ==> !Contains(list[j], Lower(Replace(name, '-', ' ')))
    ensures r == FirstMatch(name, list)
  {
    NormalizeNameReplacesDashes(name);
    FirstContainingIsFirst(list, NormalizeName(name));
    var i := 0;
    while i < |list|
      invariant 0 <= i <= |list|
      invariant forall j :: 0 <= j < i ==> !Contains(list[j], NormalizeName(name))
    {
      if Contains(list[i], NormalizeName(name)) {
        return Some(i);
      }
      i := i + 1;
    }
    return None;
  }

  /** `needle` occurs in `hay` ignoring case: Django's `icontains` lookup. */
  predicate IContains(hay: string, needle: string)
  {
    Contains(Lower(hay), Lower(needle))
  }

  /**
   * `Image.objects.filter(src__icontains=marker)`: the ids of the matching
   * images, in table order.
   */
  function ImagesContaining(images: seq<Image>, marker: string): (ids: seq<nat>)
    ensures forall k :: 0 <= k < |ids| ==> ids[k] < |images|
  {
    if images == [] then []
    else
      var n := |images| - 1;
      var before := ImagesContaining(images[..n], marker);
      if IContains(images[n].src, marker) then before + [n] else before
  }

  /**
   * The filter keeps exactly the images whose path contains the marker,
   * ignoring case, each once and in increasing id order.
   */
  lemma {:induction false} ImagesContainingSelects(images: seq<Image>, marker: string)
    ensures forall k :: 0 <= k < |ImagesContaining(images, marker)| ==>
      IContains(images[ImagesContaining(images, marker)[k]].src, marker)
    ensures forall k, l :: 0 <= k < l < |ImagesContaining(images, marker)| ==>
      ImagesContaining(images, marker)[k] < ImagesContaining(images, marker)[l]
    ensures forall i :: 0 <= i < |images| && IContains(images[i].src, marker) ==>
      i in ImagesContaining(images, marker)
  {
    if images != [] {
      var n := |images| - 1;
      ImagesContainingSelects(images[..n], marker);
      forall i | 0 <= i < n
        ensures images[..n][i] == images[i]
      {
      }
    }
  }

  /** Every image id, each once, in table order: `Image.objects.all()`. */
  function AllImages(images: seq<Image>): (ids: seq<nat>)
    ensures forall k :: 0 <= k < |ids| ==> ids[k] < |images|
    ensures forall i :: 0 <= i < |images| ==> i in ids
    ensures forall j, k :: 0 <= j < k < |ids| ==> ids[j] < ids[k]
  {
    var ids := seq(|images|, k => k);
    assert forall i :: 0 <= i < |images| ==> i in ids by {
      forall i | 0 <= i < |images|
        ensures i in ids
      {
        assert ids[i] == i;
      }
    }
    ids
  }

  /**
   * The normalised file names of the images `ids` selects, in the same order,
   * so that position `k` of the names is image `ids[k]`.
   */
  function ImageNames(images: seq<Image>, ids: seq<nat>): (names: seq<string>)
    requires forall k :: 0 <= k < |ids| ==> ids[k] < |images|
    ensures |names| == |ids|
  {
    seq(|ids|, k requires 0 <= k < |ids| => NormalizeFileName(FileName(images[ids[k]].src)))
  }

  /**
   * The names list as both seed commands write it: `image.get_filename()` for
   * each image of the queryset. Neither `Image` nor Django's `Model` defines
   * `get_filename`, so the first image raises `AttributeError` and the
   * command stops; only an empty queryset yields a list, the empty one.
   */
  function ImageNamesAsWritten(ids: seq<nat>): Option<seq<string>>
  {
    if ids == [] then Some([]) else None
  }

  /**
   * As written, the product command fails as soon as the image table has a
   * row, and the category command as soon as one image path contains the
   * category or subcategory marker.
   */
  lemma ImageNamesAsWrittenFailOnAnyImage(images: seq<Image>, marker: string)
    ensures ImageNamesAsWritten(AllImages(images)).None? <==> |images| > 0
    ensures ImageNamesAsWritten(ImagesContaining(images, marker)).None? <==>
      exists i :: 0 <= i < |images| && IContains(images[i].src, marker)
  {
    ImagesContainingSelects(images, marker);
    var ids := ImagesContaining(images, marker);
    if ids != [] {
      assert IContains(images[ids[0]].src, marker);
    }
  }

  /**
   * The image a name resolves to: the row at the position `get_image_index`
   * returns in the filtered image list.
   */
  function ImageFor(name: string, images: seq<Image>, ids: seq<nat>): (image: Option<nat>)
    requires forall k :: 0 <= k < |ids| ==> ids[k] < |images|
    ensures image.Some? ==> image.value < |images|
  {
    match FirstMatch(name, ImageNames(images, ids))
    case None => None
    case Some(k) => Some(ids[k])
  }

  /** The image file name at position `k` of the selection contains the normalised name. */
  predicate NameMatchesAt(name: string, images: seq<Image>, ids: seq<nat>, k: nat)
    requires k < |ids| && ids[k] < |images|
  {
    Contains(NormalizeFileName(FileName(images[ids[k]].src)), NormalizeName(name))
  }

  /**
   * A name resolves to the first selected image whose normalised file name
   * contains the normalised name, and to none when no such image exists.
   */
  lemma ImageForMatches(name: string, images: seq<Image>, ids: seq<nat>)
    requires forall k :: 0 <= k < |ids| ==> ids[k] < |images|
    ensures ImageFor(name, images, ids).Some? ==>
      exists k :: 0 <= k < |ids| && ImageFor(name, images, ids).value == ids[k]
        && NameMatchesAt(name, images, ids, k)
        && forall l :: 0 <= l < k ==> !NameMatchesAt(name, images, ids, l)
    ensures ImageFor(name, images, ids).None? ==>
      forall k :: 0 <= k < |ids| ==> !NameMatchesAt(name, images, ids, k)
  {
    var names := ImageNames(images, ids);
    FirstContainingIsFirst(names, NormalizeName(name));
    forall k | 0 <= k < |ids|
      ensures NameMatchesAt(name, images, ids, k) == Contains(names[k], NormalizeName(name))
    {
    }
    var r := FirstMatch(name, names);
    if r.Some? {
      var k := r.value;
      assert ImageFor(name, images, ids).value == ids[k];
      assert NameMatchesAt(name, images, ids, k);
    }
  }

  /**
   * `queryset[get_image_index(name, names)]`: the image row at the position
   * the lookup returns. A name that matches no file would index with `None`
   * and fail, so the caller guarantees a match.
   */
  method PickImage(name: string, images: seq<Image>, ids: seq<nat>, names: seq<string>) returns (id: nat)
    requires forall k :: 0 <= k < |ids| ==> ids[k] < |images|
    requires names == ImageNames(images, ids)
    requires ImageFor(name, images, ids).Some?
    ensures ImageFor(name, images, ids) == Some(id)
  {
    var index := GetImageIndex(name, names);
    id := ids[index.value];
  }

  /** The marker an image path must contain to be a category image. */
  const CategoryMarker := "Категория"

  /** The marker an image path must contain to be a subcategory image. */
  const SubcategoryMarker := "Подкатегория"

  /** Lower-casing forgets the case of the initial letter of "категория". */
  lemma LowerCategoryWordIgnoresInitialCase()
    ensures Lower("категория") == Lower(CategoryMarker)
  {
    var word := "категория";
    assert |word| == |CategoryMarker|;
    assert LowerChar(word[0]) == LowerChar(CategoryMarker[0]);
    assert word[1..] == CategoryMarker[1..];
    forall i | 1 <= i < |word|
      ensures LowerChar(word[i]) == LowerChar(CategoryMarker[i])
    {
      assert word[i] == word[1..][i - 1];
      assert CategoryMarker[i] == CategoryMarker[1..][i - 1];
    }
  }

  /** A string occurs in any extension of itself on the left, right after the extension. */
  lemma OccursAfterPrefix(prefix: string, rest: string)
    ensures OccursAt(prefix + rest, rest, |prefix|)
  {
    assert (prefix + rest)[|prefix|..|prefix| + |rest|] == rest;
  }

  /** The lower-cased category marker sits inside the lower-cased subcategory marker. */
  lemma CategoryMarkerInsideSubcategoryMarker()
    ensures OccursAt(Lower(SubcategoryMarker), Lower(CategoryMarker), 3)
  {
    assert SubcategoryMarker == "Под" + "категория";
    LowerAppend("Под", "категория");
    LowerCategoryWordIgnoresInitialCase();
    OccursAfterPrefix(Lower("Под"), Lower("категория"));
  }

  /**
   * Under a case-insensitive match the category marker is part of the
   * subcategory marker ("Под" + "категория"), so every subcategory image is
   * also a category image.
   */
  lemma SubcategoryImagesPassCategoryFilter(src: string)
    requires IContains(src, SubcategoryMarker)
    ensures IContains(src, CategoryMarker)
  {
    CategoryMarkerInsideSubcategoryMarker();
    var sub := Lower(SubcategoryMarker);
    var cat := Lower(CategoryMarker);
    assert Contains(sub, cat) by {
      assert OccursAt(sub, cat, 3);
    }
    ContainsTransitive(Lower(src), sub, cat);
  }
}

=== FILE: models.dfy ===
/**
 * The shop's records (mysite/myshop/models.py) as far as the seed commands
 * and the sale snapshot use them. Row ids are positions in the table
 * sequences of `Database`; prices are whole cents (`Decimal(8, 2)`), ratings
 * whole tenths (`Decimal(3, 1)`).
 */
module Models {
  import opened Wrappers
  import opened Text

  /** An `Image` row: the stored file path and the alternative text. */
  datatype Image = Image(src: string, alt: Option<string>)

  /** The `upload_to` callback of `Image.src`: every upload goes under `images/`. */
  function ImageDirectoryPath(instance: Image, filename: string): string
  {
    "images/" + filename
  }

  /**
   * The file name of a stored path: what the seed commands read through
   * `image.get_filename()`, taken as the last `/`-separated component.
   */
  function FileName(src: string): (name: string)
    ensures '/' !in name
  {
    var parts := Split(src, '/');
    parts[|parts| - 1]
  }

  /** The path `image_directory_path` builds names the uploaded file, whatever the instance. */
  lemma {:induction false} UploadPathKeepsFileName(instance: Image, other: Image, filename: string)
    requires '/' !in filename
    ensures FileName(ImageDirectoryPath(instance, filename)) == filename
    ensures ImageDirectoryPath(instance, filename) == ImageDirectoryPath(other, filename)
  {
    var tail := "/" + filename;
    assert ImageDirectoryPath(instance, filename) == "images" + tail;
    SplitPrepend("images", tail, '/');
    assert tail[1..] == filename;
    assert Split(tail, '/') == [""] + Split(filename, '/');
    SplitJoin([filename], '/');
    assert Split(filename, '/') == [filename];
  }

  /** A `Category` row. */
  datatype Category = Category(title: string, image: Option<nat>)

  /** A `Subcategory` row; `category` is the id of its parent `Category`. */
  datatype Subcategory = Subcategory(title: string, category: nat, image: Option<nat>)

  /** The values a `Product` row holds at one moment. */
  datatype ProductRow = ProductRow(
    category: nat, price: int, count: nat, title: string, description: string,
    fullDescription: Option<string>, freeDelivery: bool, rating: int,
    images: set<nat>, tags: set<nat>, specifications: set<nat>)

  /** A `Product` row; `category` is a `Subcategory` id, the sets hold row ids. */
  class Product {
    var category: nat
    var price: int
    var count: nat
    var title: string
    var description: string
    var fullDescription: Option<string>
    var freeDelivery: bool
    var rating: int
    var images: set<nat>
    var tags: set<nat>
    var specifications: set<nat>

    /** `Product.objects.create(...)`: the many-to-many sets start empty. */
    constructor (category: nat, price: int, count: nat, title: string, description: string,
                 fullDescription: Option<string>, freeDelivery: bool, rating: int)
      ensures this.category == category && this.price == price && this.count == count
      ensures this.title == title && this.description == description
      ensures this.fullDescription == fullDescription && this.freeDelivery == freeDelivery
      ensures this.rating == rating
      ensures images == {} && tags == {} && specifications == {}
    {
      this.category := category;
      this.price := price;
      this.count := count;
      this.title := title;
      this.description := description;
      this.fullDescription := fullDescription;
      this.freeDelivery := freeDelivery;
      this.rating := rating;
      images, tags, specifications := {}, {}, {};
    }

    /** The values the row holds now. */
    function Row(): ProductRow
      reads this
    {
      ProductRow(category, price, count, title, description, fullDescription, freeDelivery, rating,
                 images, tags, specifications)
    }
  }

  /**
   * A `ProductSale` row: its primary key is the product on sale. `price` is
   * meant to keep the price before the sale, `title` and `images` copies of
   * the product's. `stored` tells whether the row has been saved before.
   */
  class ProductSale {
    var product: Product
    var price: int
    var salePrice: int
    var dateFrom: int
    var dateTo: int
    var title: string
    var images: set<nat>
    var stored: bool

    /** A sale as a form or a caller fills it in, before it is saved. */
    constructor (product: Product, price: int, salePrice: int, dateFrom: int, dateTo: int, title: string)
      ensures this.product == product && this.price == price && this.salePrice == salePrice
      ensures this.dateFrom == dateFrom && this.dateTo == dateTo && this.title == title
      ensures images == {} && !stored
    {
      this.product := product;
      this.price := price;
      this.salePrice := salePrice;
      this.dateFrom := dateFrom;
      this.dateTo := dateTo;
      this.title := title;
      images := {};
      stored := false;
    }

    /**
     * `ProductSale.save`: snapshot the product's current price, title and
     * images into the sale, and overwrite the product's live price with the
     * sale price. No other field of the product changes.
     */
    method Save()
      modifies this, product
      ensures product == old(product)
      ensures price == old(product.price) && title == old(product.title)
      ensures images == old(product.images)
      ensures salePrice == old(salePrice) && dateFrom == old(dateFrom) && dateTo == old(dateTo)
      ensures product.price == salePrice
      ensures product.category == old(product.category) && product.count == old(product.count)
      ensures product.title == old(product.title) && product.description == old(product.description)
      ensures product.fullDescription == old(product.fullDescription)
      ensures product.freeDelivery == old(product.freeDelivery) && product.rating == old(product.rating)
      ensures product.images == old(product.images) && product.tags == old(product.tags)
      ensures product.specifications == old(product.specifications)
      ensures stored
    {
      var fetched := product;
      price := fetched.price;
      title := fetched.title;
      var newPrice := salePrice;
      fetched.price := newPrice;
      stored := true;
      images := fetched.images;
    }

    /**
     * `ProductSale.save` as its documentation describes it: the product's
     * price, title and images are copied when the sale is first created
     * only; every save puts the sale price on the product.
     */
    method SaveSnapshotOnCreate()
      modifies this, product
      ensures product == old(product) && stored
      ensures !old(stored) ==> price == old(product.price) && title == old(product.title)
      ensures !old(stored) ==> images == old(product.images)
      ensures old(stored) ==> price == old(price) && title == old(title) && images == old(images)
      ensures salePrice == old(salePrice) && dateFrom == old(dateFrom) && dateTo == old(dateTo)
      ensures product.price == salePrice
      ensures product.category == old(product.category) && product.count == old(product.count)
      ensures product.title == old(product.title) && product.description == old(product.description)
      ensures product.fullDescription == old(product.fullDescription)
      ensures product.freeDelivery == old(product.freeDelivery) && product.rating == old(product.rating)
      ensures product.images == old(product.images) && product.tags == old(product.tags)
      ensures product.specifications == old(product.specifications)
    {
      var fetched := product;
      if !stored {
        price := fetched.price;
        title := fetched.title;
        images := fetched.images;
      }
      fetched.price := salePrice;
      stored := true;
    }
  }

  /**
   * Saving the same sale again (as the admin does on every edit) is not
   * idempotent: the second snapshot reads the already reduced price, so the
   * price before the sale is lost and `price` ends equal to `salePrice`.
   */
  method SaveTwice(sale: ProductSale)
    modifies sale, sale.product
    ensures sale.product == old(sale.product)
    ensures sale.price == sale.salePrice == old(sale.salePrice)
    ensures sale.product.price == sale.salePrice
  {
    sale.Save();
    sale.Save();
  }

  /**
   * With the snapshot taken on creation only, a new sale saved twice still
   * holds the price, title and images the product had before the sale.
   */
  method SaveTwiceKeepsSnapshot(sale: ProductSale)
    requires !sale.stored
    modifies sale, sale.product
    ensures sale.product == old(sale.product)
    ensures sale.price == old(sale.product.price) && sale.title == old(sale.product.title)
    ensures sale.images == old(sale.product.images)
    ensures sale.product.price == sale.salePrice == old(sale.salePrice)
  {
    sale.SaveSnapshotOnCreate();
    sale.SaveSnapshotOnCreate();
  }

  /**
   * The tables the seed commands read and write. The image table is only
   * read by them, so it is fixed when the database is made.
   */
  class Database {
    const images: seq<Image>
    var categories: seq<Category>
    var subcategories: seq<Subcategory>
    var tags: seq<string>
    var specifications: seq<(string, string)>

    constructor (images: seq<Image>)
      ensures this.images == images
      ensures categories == [] && subcategories == [] && tags == []
      ensures specifications == []
    {
      this.images := images;
      categories, subcategories, tags := [], [], [];
      specifications := [];
    }
  }
}

=== FILE: password.dfy ===
/**
 * Sign-up of a new account (mysite/myauth/views.py, `SignUpView`).
 *
 * The password is matched against the class attribute
 * `^(?=.*[a-z])(?=.*[A-Z])(?=.*\d)[A-Za-z\d]{8,}$` with Python's `re.match`.
 * Only a password that matches leads to `create_user` and then to
 * `Profile.objects.create`; a mismatch raises `ValidationError` first.
 * Both that error and the database's `IntegrityError` for a taken username
 * are answered with status 500 and an "unsuccessful operation" body.
 */
module SignUp {
  import opened Wrappers

  /** `[a-z]` in the pattern: ASCII only, the pattern has no IGNORECASE flag. */
  predicate IsAsciiLower(c: char) { 'a' <= c <= 'z' }

  /** `[A-Z]` in the pattern. */
  predicate IsAsciiUpper(c: char) { 'A' <= c <= 'Z' }

  /**
   * The Unicode 15.0 decimal digits (general category Nd) beyond ASCII, as
   * inclusive ranges, all from U+0660 on.
   */
  predicate IsNonAsciiDigit(c: char)
  {
       ('\U{660}' <= c <= '\U{669}') || ('\U{6F0}' <= c <= '\U{6F9}') || ('\U{7C0}' <= c <= '\U{7C9}')
    || ('\U{966}' <= c <= '\U{96F}') || ('\U{9E6}' <= c <= '\U{9EF}') || ('\U{A66}' <= c <= '\U{A6F}')
    || ('\U{AE6}' <= c <= '\U{AEF}') || ('\U{B66}' <= c <= '\U{B6F}') || ('\U{BE6}' <= c <= '\U{BEF}')
    || ('\U{C66}' <= c <= '\U{C6F}') || ('\U{CE6}' <= c <= '\U{CEF}') || ('\U{D66}' <= c <= '\U{D6F}')
    || ('\U{DE6}' <= c <= '\U{DEF}') || ('\U{E50}' <= c <= '\U{E59}') || ('\U{ED0}' <= c <= '\U{ED9}')
    || ('\U{F20}' <= c <= '\U{F29}') || ('\U{1040}' <= c <= '\U{1049}') || ('\U{1090}' <= c <= '\U{1099}')
    || ('\U{17E0}' <= c <= '\U{17E9}') || ('\U{1810}' <= c <= '\U{1819}') || ('\U{1946}' <= c <= '\U{194F}')
    || ('\U{19D0}' <= c <= '\U{19D9}') || ('\U{1A80}' <= c <= '\U{1A89}') || ('\U{1A90}' <= c <= '\U{1A99}')
    || ('\U{1B50}' <= c <= '\U{1B59}') || ('\U{1BB0}' <= c <= '\U{1BB9}') || ('\U{1C40}' <= c <= '\U{1C49}')
    || ('\U{1C50}' <= c <= '\U{1C59}') || ('\U{A620}' <= c <= '\U{A629}') || ('\U{A8D0}' <= c <= '\U{A8D9}')
    || ('\U{A900}' <= c <= '\U{A909}') || ('\U{A9D0}' <= c <= '\U{A9D9}') || ('\U{A9F0}' <= c <= '\U{A9F9}')
    || ('\U{AA50}' <= c <= '\U{AA59}') || ('\U{ABF0}' <= c <= '\U{ABF9}') || ('\U{FF10}' <= c <= '\U{FF19}')
    || ('\U{104A0}' <= c <= '\U{104A9}') || ('\U{10D30}' <= c <= '\U{10D39}') || ('\U{11066}' <= c <= '\U{1106F}')
    || ('\U{110F0}' <= c <= '\U{110F9}') || ('\U{11136}' <= c <= '\U{1113F}') || ('\U{111D0}' <= c <= '\U{111D9}')
    || ('\U{112F0}' <= c <= '\U{112F9}') || ('\U{11450}' <= c <= '\U{11459}') || ('\U{114D0}' <= c <= '\U{114D9}')
    || ('\U{11650}' <= c <= '\U{11659}') || ('\U{116C0}' <= c <= '\U{116C9}') || ('\U{11730}' <= c <= '\U{11739}')
    || ('\U{118E0}' <= c <= '\U{118E9}') || ('\U{11950}' <= c <= '\U{11959}') || ('\U{11C50}' <= c <= '\U{11C59}')
    || ('\U{11D50}' <= c <= '\U{11D59}') || ('\U{11DA0}' <= c <= '\U{11DA9}') || ('\U{11F50}' <= c <= '\U{11F59}')
    || ('\U{16A60}' <= c <= '\U{16A69}') || ('\U{16AC0}' <= c <= '\U{16AC9}') || ('\U{16B50}' <= c <= '\U{16B59}')
    || ('\U{1D7CE}' <= c <= '\U{1D7FF}') || ('\U{1E140}' <= c <= '\U{1E149}') || ('\U{1E2F0}' <= c <= '\U{1E2F9}')
    || ('\U{1E4F0}' <= c <= '\U{1E4F9}') || ('\U{1E950}' <= c <= '\U{1E959}') || ('\U{1FBF0}' <= c <= '\U{1FBF9}')
  }

  /**
   * `\d` in a Python 3 `str` pattern: any Unicode decimal digit, not only
   * `0`-`9`.
   */
  predicate IsDecimalDigit(c: char)
  {
    ('0' <= c <= '9') || ('\U{660}' <= c && IsNonAsciiDigit(c))
  }

  /** The class `[A-Za-z\d]` of the repeated part of the pattern. */
  predicate InPasswordAlphabet(c: char)
  {
    IsAsciiLower(c) || IsAsciiUpper(c) || IsDecimalDigit(c)
  }

  /** The three character classes the look-aheads ask for. */
  datatype CharClass = LowerCase | UpperCase | Digit

  predicate InClass(cls: CharClass, c: char)
  {
    match cls
    case LowerCase => IsAsciiLower(c)
    case UpperCase => IsAsciiUpper(c)
    case Digit => IsDecimalDigit(c)
  }

  // ---------------------------------------------------------------------
  // What `re.match(pattern, p)` accepts, read off the pattern itself.
  // ---------------------------------------------------------------------

  /** `.` does not match a newline, so `.*` can only cross newline-free text. */
  ghost predicate NoNewlineBefore(p: string, k: int)
    requires 0 <= k <= |p|
  {
    forall j :: 0 <= j < k ==> p[j] != '\n'
  }

  /** `(?=.*[...])` at the start: some character of the class is reachable by `.*`. */
  ghost predicate LookaheadFinds(p: string, cls: CharClass)
  {
    exists k :: 0 <= k < |p| && NoNewlineBefore(p, k) && InClass(cls, p[k])
  }

  /**
   * `[A-Za-z\d]{8,}$` consumes `p[..m]`; `$` (without MULTILINE) holds at the
   * very end or just before one final newline.
   */
  ghost predicate BodyEndsAt(p: string, m: int)
  {
    8 <= m <= |p|
    && (forall j :: 0 <= j < m ==> InPasswordAlphabet(p[j]))
    && (m == |p| || (m == |p| - 1 && p[m] == '\n'))
  }

  /** The password policy exactly as the regular expression states it. */
  ghost predicate MatchesPattern(p: string)
  {
    && LookaheadFinds(p, LowerCase)
    && LookaheadFinds(p, UpperCase)
    && LookaheadFinds(p, Digit)
    && exists m :: BodyEndsAt(p, m)
  }

  // ---------------------------------------------------------------------
  // The check as computed.
  // ---------------------------------------------------------------------

  /** The part of `p` the repetition must cover: `p` without one trailing newline. */
  function Body(p: string): (b: string)
    ensures b == p || (p != [] && p[|p| - 1] == '\n' && b == p[..|p| - 1])
  {
    if |p| > 0 && p[|p| - 1] == '\n' then p[..|p| - 1] else p
  }

  /** Every character of `s` is in `[A-Za-z\d]`. */
  predicate AllInAlphabet(s: string)
  {
    forall i :: 0 <= i < |s| ==> InPasswordAlphabet(s[i])
  }

  /** Some character of `s` is in the class. */
  predicate HasClass(s: string, cls: CharClass)
  {
    exists i :: 0 <= i < |s| && InClass(cls, s[i])
  }

  /** `re.match(SignUpView.pattern, p) is not None`. */
  function PasswordAccepted(p: string): bool
  {
    var b := Body(p);
    |b| >= 8 && AllInAlphabet(b)
    && HasClass(b, LowerCase) && HasClass(b, UpperCase) && HasClass(b, Digit)
  }

  lemma NewlineNotInAlphabet()
    ensures !InPasswordAlphabet('\n')
  {
  }

  lemma {:induction false} LookaheadFromBody(p: string, cls: CharClass)
    requires HasClass(Body(p), cls) && AllInAlphabet(Body(p))
    ensures LookaheadFinds(p, cls)
  {
    var b := Body(p);
    var k :| 0 <= k < |b| && InClass(cls, b[k]);
    NewlineNotInAlphabet();
    assert p[k] == b[k];
    assert NoNewlineBefore(p, k) by {
      forall j | 0 <= j < k ensures p[j] != '\n' {
        assert p[j] == b[j];
      }
    }
  }

  lemma {:induction false} BodyFromLookahead(p: string, cls: CharClass, m: int)
    requires BodyEndsAt(p, m) && LookaheadFinds(p, cls)
    ensures Body(p) == p[..m]
    ensures HasClass(Body(p), cls)
  {
    NewlineNotInAlphabet();
    if m == |p| {
      assert p[|p| - 1] != '\n';
      assert p[..m] == p;
    }
    var k :| 0 <= k < |p| && NoNewlineBefore(p, k) && InClass(cls, p[k]);
    if k >= m {
      assert false;
    }
    assert Body(p)[k] == p[k];
  }

  /** The computed check accepts exactly the passwords the regular expression matches. */
  lemma {:induction false} PasswordAcceptedMatchesPattern(p: string)
    ensures PasswordAccepted(p) <==> MatchesPattern(p)
  {
    if PasswordAccepted(p) {
      var b := Body(p);
      NewlineNotInAlphabet();
      assert BodyEndsAt(p, |b|) by {
        forall j | 0 <= j < |b| ensures InPasswordAlphabet(p[j]) {
          assert p[j] == b[j];
        }
      }
      LookaheadFromBody(p, LowerCase);
      LookaheadFromBody(p, UpperCase);
      LookaheadFromBody(p, Digit);
    }
    if MatchesPattern(p) {
      var m :| BodyEndsAt(p, m);
      BodyFromLookahead(p, LowerCase, m);
      BodyFromLookahead(p, UpperCase, m);
      BodyFromLookahead(p, Digit, m);
    }
  }

  /**
   * What an accepted password looks like: at least 8 characters, all of them
   * from `[A-Za-z\d]` except possibly one final newline, and at least one
   * lower-case letter, one upper-case letter and one digit.
   */
  lemma {:induction false} AcceptedPasswordShape(p: string)
    requires PasswordAccepted(p)
    ensures |p| >= 8
    ensures forall i :: 0 <= i < |p| ==> InPasswordAlphabet(p[i]) || (i == |p| - 1 && p[i] == '\n')
    ensures exists i :: 0 <= i < |p| && IsAsciiLower(p[i])
    ensures exists i :: 0 <= i < |p| && IsAsciiUpper(p[i])
    ensures exists i :: 0 <= i < |p| && IsDecimalDigit(p[i])
  {
    var b := Body(p);
    forall i | 0 <= i < |p| && i < |b| ensures p[i] == b[i] && InPasswordAlphabet(p[i]) {
    }
    var l :| 0 <= l < |b| && InClass(LowerCase, b[l]);
    var u :| 0 <= u < |b| && InClass(UpperCase, b[u]);
    var d :| 0 <= d < |b| && InClass(Digit, b[d]);
    assert IsAsciiLower(p[l]) && IsAsciiUpper(p[u]) && IsDecimalDigit(p[d]);
  }

  /** Conversely, a newline-free password of that shape is accepted. */
  lemma {:induction false} WellFormedPasswordAccepted(p: string)
    requires |p| >= 8
    requires forall i :: 0 <= i < |p| ==> InPasswordAlphabet(p[i])
    requires exists i :: 0 <= i < |p| && IsAsciiLower(p[i])
    requires exists i :: 0 <= i < |p| && IsAsciiUpper(p[i])
    requires exists i :: 0 <= i < |p| && IsDecimalDigit(p[i])
    ensures PasswordAccepted(p)
  {
    NewlineNotInAlphabet();
    assert p[|p| - 1] != '\n';
    assert Body(p) == p;
    var l :| 0 <= l < |p| && IsAsciiLower(p[l]);
    var u :| 0 <= u < |p| && IsAsciiUpper(p[u]);
    var d :| 0 <= d < |p| && IsDecimalDigit(p[d]);
    assert InClass(LowerCase, p[l]) && InClass(UpperCase, p[u]) && InClass(Digit, p[d]);
  }

  /** "short1" is too short and has no upper-case letter. */
  lemma ShortPasswordRejected()
    ensures !PasswordAccepted("short1")
  {
  }

  /** "Str0ngPass" has all three kinds of character and ten of them. */
  lemma StrongPasswordAccepted()
    ensures PasswordAccepted("Str0ngPass")
  {
    var p := "Str0ngPass";
    assert IsAsciiLower(p[1]) && IsAsciiUpper(p[0]) && IsDecimalDigit(p[3]);
    assert forall i :: 0 <= i < |p| ==> InPasswordAlphabet(p[i]);
    WellFormedPasswordAccepted(p);
  }

  /** `$` lets one trailing newline through... */
  lemma OneTrailingNewlineAccepted()
    ensures PasswordAccepted("Str0ngPass\n")
  {
    var p := "Str0ngPass\n";
    StrongPasswordAccepted();
    assert p[..|p| - 1] == "Str0ngPass";
  }

  /** ...but not two. */
  lemma TwoTrailingNewlinesRejected()
    ensures !PasswordAccepted("Str0ngPass\n\n")
  {
    var p := "Str0ngPass\n\n";
    var b := Body(p);
    assert b == p[..|p| - 1];
    NewlineNotInAlphabet();
    assert b[10] == '\n';
  }

  /** Cyrillic letters are outside `[A-Za-z]`; an Arabic-Indic three is a `\d`. */
  lemma ScriptsOfPasswords()
    ensures !PasswordAccepted("Пароль12Ab")
    ensures PasswordAccepted("Str٣ngPass")
  {
    assert !InPasswordAlphabet("Пароль12Ab"[0]);
    var p := "Str٣ngPass";
    assert IsDecimalDigit(p[3]);
    assert IsAsciiLower(p[1]) && IsAsciiUpper(p[0]);
    assert forall i :: 0 <= i < |p| ==> InPasswordAlphabet(p[i]);
    WellFormedPasswordAccepted(p);
  }

  // ---------------------------------------------------------------------
  // The view: validate, then create the User, then the Profile.
  // ---------------------------------------------------------------------

  /** A row of Django's user table, as far as sign-up is concerned. */
  datatype User = User(id: nat, username: string)

  /** A row of `Profile`: its primary key is the owning user. */
  datatype Profile = Profile(user: nat, fullName: string)

  /** The two tables sign-up writes, and the id the next user will get. */
  datatype AuthDb = AuthDb(users: seq<User>, profiles: seq<Profile>, nextId: nat)

  /**
   * The response: a status code and, for an error the view catches, the body
   * `{"unsuccessful operation": message}` as its one key and value.
   */
  datatype Response = Response(status: nat, body: Option<(string, string)>)

  /** The key of the failure body. */
  const UnsuccessfulKey := "unsuccessful operation"

  /**
   * `str()` of the `ValidationError` the view raises: Django renders the
   * one-message error as a Python list literal. The stray double quote is in
   * the source's message.
   */
  const PasswordErrorText := "['The password must contain characters in both registers, \"numbers and a minimum length of 8 characters']"

  /**
   * What the database driver says when a constraint fails: the unique
   * username of the user table, and the NOT NULL `fullName` of the profile
   * table.
   */
  datatype DriverTexts = DriverTexts(usernameTaken: string, fullNameNull: string)

  /** The state after the request, the response, and the user logged into the session. */
  datatype SignUpOutcome = SignUpOutcome(db: AuthDb, response: Response, session: Option<nat>)

  predicate UsernameTaken(db: AuthDb, username: string)
  {
    exists i :: 0 <= i < |db.users| && db.users[i].username == username
  }

  /** Some user has the id `id`. */
  ghost predicate IsUser(db: AuthDb, id: nat)
  {
    exists j :: 0 <= j < |db.users| && db.users[j].id == id
  }

  /**
   * The invariant of the two tables: user ids and usernames are unique and
   * below `nextId`, every profile belongs to an existing user, and no user
   * has two profiles.
   */
  ghost predicate Consistent(db: AuthDb)
  {
    && (forall i :: 0 <= i < |db.users| ==> db.users[i].id < db.nextId)
    && (forall i, j :: 0 <= i < j < |db.users| ==> db.users[i].id != db.users[j].id)
    && (forall i, j :: 0 <= i < j < |db.users| ==> db.users[i].username != db.users[j].username)
    && (forall i :: 0 <= i < |db.profiles| ==> IsUser(db, db.profiles[i].user))
    && (forall i, j :: 0 <= i < j < |db.profiles| ==> db.profiles[i].user != db.profiles[j].user)
  }

  /** Some profile belongs to `user`. */
  ghost predicate HasProfile(db: AuthDb, user: User)
  {
    exists j :: 0 <= j < |db.profiles| && db.profiles[j].user == user.id
  }

  /** Every user has a profile. */
  ghost predicate EveryUserHasProfile(db: AuthDb)
  {
    forall i :: 0 <= i < |db.users| ==> HasProfile(db, db.users[i])
  }

  /**
   * `SignUpView.post`. `name` is `None` when the body has no "name".
   * `create_user` refuses an empty username with a `ValueError` the view does
   * not catch, so the request ends in Django's own server error page, with
   * no JSON body (`body == None` here); it
   * stores the username after `normalize_username`, Unicode NFKC, for which
   * `nfkc` stands. The user is stored before the profile, and nothing undoes
   * it when the profile then fails.
   */
  function SignUpPost(db: AuthDb, name: Option<string>, username: string, password: string,
                      nfkc: string -> string, texts: DriverTexts): (out: SignUpOutcome)
    ensures out.response.status == 200 <==>
      PasswordAccepted(password) && username != "" && !UsernameTaken(db, nfkc(username)) && name.Some?
    ensures out.response.status != 200 ==> out.response.status == 500 && out.session == None
    ensures !PasswordAccepted(password) ==>
      out == SignUpOutcome(db, Response(500, Some((UnsuccessfulKey, PasswordErrorText))), None)
    ensures PasswordAccepted(password) && username == "" ==> out.db == db && out.response.body == None
    ensures PasswordAccepted(password) && username != "" && UsernameTaken(db, nfkc(username)) ==>
      out == SignUpOutcome(db, Response(500, Some((UnsuccessfulKey, texts.usernameTaken))), None)
    ensures PasswordAccepted(password) && username != "" && !UsernameTaken(db, nfkc(username)) ==>
      && out.db.users == db.users + [User(db.nextId, nfkc(username))]
      && out.db.nextId == db.nextId + 1
    ensures out.db.users != db.users ==>
      && PasswordAccepted(password) && username != "" && !UsernameTaken(db, nfkc(username))
      && out.db.users == db.users + [User(db.nextId, nfkc(username))]
      && out.db.nextId == db.nextId + 1
    ensures out.db.users != db.users && name.None? ==>
      && out.db.profiles == db.profiles
      && out.response.body == Some((UnsuccessfulKey, texts.fullNameNull))
    ensures out.response.status == 200 ==>
      && out.db.profiles == db.profiles + [Profile(db.nextId, name.value)]
      && out.response.body == None
      && out.session == Some(db.nextId)
    ensures out.response.status != 200 ==> out.db.profiles == db.profiles
  {
    if !PasswordAccepted(password) then
      SignUpOutcome(db, Response(500, Some((UnsuccessfulKey, PasswordErrorText))), None)
    else if username == "" then
      SignUpOutcome(db, Response(500, None), None)
    else if UsernameTaken(db, nfkc(username)) then
      SignUpOutcome(db, Response(500, Some((UnsuccessfulKey, texts.usernameTaken))), None)
    else
      var user := User(db.nextId, nfkc(username));
      var afterUser := db.(users := db.users + [user], nextId := db.nextId + 1);
      match name
      case None =>
        SignUpOutcome(afterUser, Response(500, Some((UnsuccessfulKey, texts.fullNameNull))), None)
      case Some(fullName) =>
        var afterProfile := afterUser.(profiles := afterUser.profiles + [Profile(user.id, fullName)]);
        SignUpOutcome(afterProfile, Response(200, None), Some(user.id))
  }

  /** Under `Consistent`, every profile belongs to an id below `nextId`. */
  lemma ProfilesBelowNextId(db: AuthDb)
    requires Consistent(db)
    ensures forall i :: 0 <= i < |db.profiles| ==> db.profiles[i].user < db.nextId
  {
    forall i | 0 <= i < |db.profiles|
      ensures db.profiles[i].user < db.nextId
    {
      var j :| 0 <= j < |db.users| && db.users[j].id == db.profiles[i].user;
    }
  }

  /** Adding a user with a fresh id and an untaken username keeps the tables consistent. */
  lemma NewUserKeepsConsistent(db: AuthDb, after: AuthDb, user: User)
    requires Consistent(db) && user.id == db.nextId && !UsernameTaken(db, user.username)
    requires after == AuthDb(db.users + [user], db.profiles, db.nextId + 1)
    ensures Consistent(after)
  {
    forall i | 0 <= i < |after.profiles|
      ensures IsUser(after, after.profiles[i].user)
    {
      var j :| 0 <= j < |db.users| && db.users[j].id == db.profiles[i].user;
      assert after.users[j] == db.users[j];
    }
  }

  /** Adding a profile for an existing user that has none keeps the tables consistent. */
  lemma NewProfileKeepsConsistent(db: AuthDb, after: AuthDb, profile: Profile)
    requires Consistent(db) && IsUser(db, profile.user)
    requires forall i :: 0 <= i < |db.profiles| ==> db.profiles[i].user != profile.user
    requires after == db.(profiles := db.profiles + [profile])
    ensures Consistent(after)
  {
    forall i | 0 <= i < |after.profiles|
      ensures IsUser(after, after.profiles[i].user)
    {
      if i < |db.profiles| {
        assert after.profiles[i] == db.profiles[i];
      }
    }
  }

  /**
   * Sign-up keeps the tables consistent: ids and usernames stay unique, even
   * when two usernames differ only until normalised, and no user gets a
   * second profile.
   */
  lemma {:induction false} SignUpKeepsConsistent(db: AuthDb, name: Option<string>, username: string,
                                                 password: string, nfkc: string -> string, texts: DriverTexts)
    requires Consistent(db)
    ensures Consistent(SignUpPost(db, name, username, password, nfkc, texts).db)
  {
    var out := SignUpPost(db, name, username, password, nfkc, texts);
    if out.db.users != db.users {
      var user := User(db.nextId, nfkc(username));
      var afterUser := AuthDb(db.users + [user], db.profiles, db.nextId + 1);
      NewUserKeepsConsistent(db, afterUser, user);
      if out.db.profiles != db.profiles {
        ProfilesBelowNextId(db);
        assert afterUser.users[|db.users|] == user;
        NewProfileKeepsConsistent(afterUser, out.db, Profile(user.id, name.value));
      }
    }
  }

  /**
   * A body without "name" leaves a user behind: the user is stored, the
   * profile fails on its NOT NULL `fullName`, and the view answers 500 while
   * the username is now taken and the user has no profile.
   */
  lemma MissingNameLeavesUserWithoutProfile(db: AuthDb, username: string, password: string,
                                            nfkc: string -> string, texts: DriverTexts)
    requires Consistent(db)
    requires PasswordAccepted(password) && username != "" && !UsernameTaken(db, nfkc(username))
    ensures var out := SignUpPost(db, None, username, password, nfkc, texts);
      && out.response.status == 500
      && UsernameTaken(out.db, nfkc(username))
      && !EveryUserHasProfile(out.db)
  {
    var out := SignUpPost(db, None, username, password, nfkc, texts);
    var n := |db.users|;
    assert out.db.users[n] == User(db.nextId, nfkc(username));
    forall j | 0 <= j < |out.db.profiles|
      ensures out.db.profiles[j].user != out.db.users[n].id
    {
      assert out.db.profiles[j] == db.profiles[j];
      var k :| 0 <= k < |db.users| && db.users[k].id == db.profiles[j].user;
    }
  }

  /**
   * Sign-up as one transaction: when the view fails after storing the user,
   * the user is rolled back with it.
   */
  function SignUpPostAtomic(db: AuthDb, name: Option<string>, username: string, password: string,
                            nfkc: string -> string, texts: DriverTexts): (out: SignUpOutcome)
    ensures out.response == SignUpPost(db, name, username, password, nfkc, texts).response
    ensures out.response.status != 200 ==> out.db == db && out.session == None
  {
    var out := SignUpPost(db, name, username, password, nfkc, texts);
    if out.response.status == 200 then out else SignUpOutcome(db, out.response, None)
  }

  /** A user added together with its profile keeps every user with a profile. */
  lemma UserWithProfileKeepsEveryUserProfiled(db: AuthDb, after: AuthDb, user: User, profile: Profile)
    requires EveryUserHasProfile(db) && profile.user == user.id
    requires after.users == db.users + [user] && after.profiles == db.profiles + [profile]
    ensures EveryUserHasProfile(after)
  {
    forall i | 0 <= i < |after.users|
      ensures HasProfile(after, after.users[i])
    {
      if i < |db.users| {
        assert after.users[i] == db.users[i];
        var j :| 0 <= j < |db.profiles| && db.profiles[j].user == db.users[i].id;
        assert after.profiles[j] == db.profiles[j];
      } else {
        assert after.profiles[|db.profiles|].user == after.users[i].id;
      }
    }
  }

  /** Sign-up as one transaction keeps the tables consistent and every user with a profile. */
  lemma AtomicSignUpKeepsEveryUserProfiled(db: AuthDb, name: Option<string>, username: string,
                                           password: string, nfkc: string -> string, texts: DriverTexts)
    requires Consistent(db) && EveryUserHasProfile(db)
    ensures var out := SignUpPostAtomic(db, name, username, password, nfkc, texts);
      Consistent(out.db) && EveryUserHasProfile(out.db)
  {
    var out := SignUpPostAtomic(db, name, username, password, nfkc, texts);
    SignUpKeepsConsistent(db, name, username, password, nfkc, texts);
    if out.response.status == 200 {
      var user := User(db.nextId, nfkc(username));
      var profile := Profile(db.nextId, name.value);
      assert out.db == AuthDb(db.users + [user], db.profiles + [profile], db.nextId + 1);
      UserWithProfileKeepsEveryUserProfiled(db, out.db, user, profile);
    }
  }

  /**
   * A user is only ever created for a password that passed the policy and a
   * non-empty username, as one row holding the normalised username; a profile
   * only together with its user, and only when a name was given.
   */
  lemma {:induction false} AccountsNeedAcceptedPassword(db: AuthDb, name: Option<string>, username: string,
                                                        password: string, nfkc: string -> string,
                                                        texts: DriverTexts)
    ensures var out := SignUpPost(db, name, username, password, nfkc, texts);
      |out.db.users| != |db.users| ==>
        && PasswordAccepted(password)
        && |password| >= 8
        && username != ""
        && |out.db.users| == |db.users| + 1
        && out.db.users[|db.users|].username == nfkc(username)
    ensures var out := SignUpPost(db, name, username, password, nfkc, texts);
      |out.db.profiles| != |db.profiles| ==>
        && name.Some?
        && |out.db.users| == |db.users| + 1
        && |out.db.profiles| == |db.profiles| + 1
        && out.db.profiles[|db.profiles|] == Profile(db.nextId, name.value)
  {
    if PasswordAccepted(password) {
      AcceptedPasswordShape(password);
    }
  }
}

=== FILE: seed_categories.dfy ===
/**
 * The `upload_categories_to_db` seed command: one `Category` row per key of
 * its context, each followed by one `Subcategory` row per name listed under
 * it, every row given the image its title resolves to.
 *
 * Category images are the images whose path contains "Категория", ignoring
 * case; subcategory images those whose path contains "Подкатегория".
 * `Category.image` and `Subcategory.image` are one-to-one fields, so no two
 * rows of one table may hold the same image.
 */
module SeedCategories {
  import opened Wrappers
  import opened Text
  import opened Models
  import opened ImageIndex

  /** The command's context: category titles, each with its subcategory titles, in order. */
  type Context = seq<(string, seq<string>)>

  /** `Image.objects.filter(src__icontains='Категория')`, as image ids. */
  function CategoryImageIds(images: seq<Image>): (ids: seq<nat>)
    ensures forall k :: 0 <= k < |ids| ==> ids[k] < |images|
  {
    ImagesContaining(images, CategoryMarker)
  }

  /** `Image.objects.filter(src__icontains='Подкатегория')`, as image ids. */
  function SubcategoryImageIds(images: seq<Image>): (ids: seq<nat>)
    ensures forall k :: 0 <= k < |ids| ==> ids[k] < |images|
  {
    ImagesContaining(images, SubcategoryMarker)
  }

  /** The image a category title resolves to among the category images. */
  function CategoryImage(images: seq<Image>, title: string): (image: Option<nat>)
    ensures image.Some? ==> image.value < |images|
  {
    ImageFor(title, images, CategoryImageIds(images))
  }

  /**
   * A category title's image is a category image whose normalised file name
   * contains the normalised title.
   */
  lemma CategoryImageMatches(images: seq<Image>, title: string)
    requires CategoryImage(images, title).Some?
    ensures var id := CategoryImage(images, title).value;
            && IContains(images[id].src, CategoryMarker)
            && Contains(NormalizeFileName(FileName(images[id].src)), NormalizeName(title))
  {
    var ids := CategoryImageIds(images);
    ImageForMatches(title, images, ids);
    ImagesContainingSelects(images, CategoryMarker);
    var k :| 0 <= k < |ids| && CategoryImage(images, title).value == ids[k] && NameMatchesAt(title, images, ids, k);
  }

  /** The image a subcategory title resolves to among the subcategory images. */
  function SubcategoryImage(images: seq<Image>, title: string): (image: Option<nat>)
    ensures image.Some? ==> image.value < |images|
  {
    ImageFor(title, images, SubcategoryImageIds(images))
  }

  /**
   * A subcategory title's image is a subcategory image whose normalised file name
   * contains the normalised title.
   */
  lemma SubcategoryImageMatches(images: seq<Image>, title: string)
    requires SubcategoryImage(images, title).Some?
    ensures var id := SubcategoryImage(images, title).value;
            && IContains(images[id].src, SubcategoryMarker)
            && Contains(NormalizeFileName(FileName(images[id].src)), NormalizeName(title))
  {
    var ids := SubcategoryImageIds(images);
    ImageForMatches(title, images, ids);
    ImagesContainingSelects(images, SubcategoryMarker);
    var k :| 0 <= k < |ids| && SubcategoryImage(images, title).value == ids[k] && NameMatchesAt(title, images, ids, k);
  }

  /**
   * Every subcategory image is also a category image: the category filter
   * offers subcategory pictures to category titles as well.
   */
  lemma SubcategoryImagesAreCategoryImages(images: seq<Image>)
    ensures forall k :: 0 <= k < |SubcategoryImageIds(images)| ==>
      SubcategoryImageIds(images)[k] in CategoryImageIds(images)
  {
    var subIds := SubcategoryImageIds(images);
    ImagesContainingSelects(images, SubcategoryMarker);
    ImagesContainingSelects(images, CategoryMarker);
    forall k | 0 <= k < |subIds|
      ensures subIds[k] in CategoryImageIds(images)
    {
      SubcategoryImagesPassCategoryFilter(images[subIds[k]].src);
    }
  }

  /** A category title and each of its subcategory titles resolve to an image. */
  predicate EntryHasImages(images: seq<Image>, title: string, subtitles: seq<string>)
  {
    && CategoryImage(images, title).Some?
    && forall j :: 0 <= j < |subtitles| ==> SubcategoryImage(images, subtitles[j]).Some?
  }

  /** Every title of the context resolves to an image: otherwise the command fails. */
  predicate EveryTitleHasImage(images: seq<Image>, context: Context)
  {
    forall k :: 0 <= k < |context| ==> EntryHasImages(images, context[k].0, context[k].1)
  }

  /**
   * The image lists `handle` prepares before its loop: the category and the
   * subcategory images, and their normalised file names in the same order.
   */
  datatype ImageLists = ImageLists(categoryIds: seq<nat>, categoryNames: seq<string>,
                                   subcategoryIds: seq<nat>, subcategoryNames: seq<string>)

  predicate Prepared(images: seq<Image>, lists: ImageLists)
  {
    && lists.categoryIds == CategoryImageIds(images)
    && lists.categoryNames == ImageNames(images, lists.categoryIds)
    && lists.subcategoryIds == SubcategoryImageIds(images)
    && lists.subcategoryNames == ImageNames(images, lists.subcategoryIds)
  }

  /** No image is held by two category rows (the one-to-one constraint on `image`). */
  predicate CategoryImagesDistinct(rows: seq<Category>)
  {
    forall i, j :: 0 <= i < j < |rows| && rows[i].image.Some? ==> rows[i].image != rows[j].image
  }

  /** No image is held by two subcategory rows (the one-to-one constraint on `image`). */
  predicate SubcategoryImagesDistinct(rows: seq<Subcategory>)
  {
    forall i, j :: 0 <= i < j < |rows| && rows[i].image.Some? ==> rows[i].image != rows[j].image
  }

  /** The category rows the command adds, one per context entry, in order. */
  function CategoryRows(images: seq<Image>, context: Context): (rows: seq<Category>)
    ensures |rows| == |context|
  {
    seq(|context|, k requires 0 <= k < |context| =>
      Category(context[k].0, CategoryImage(images, context[k].0)))
  }

  /** The subcategory rows added under the category whose id is `parent`. */
  function SubcategoryRowsFor(images: seq<Image>, titles: seq<string>, parent: nat): (rows: seq<Subcategory>)
    ensures |rows| == |titles|
  {
    seq(|titles|, j requires 0 <= j < |titles| =>
      Subcategory(titles[j], parent, SubcategoryImage(images, titles[j])))
  }

  /** Number of subcategory titles in the context. */
  function SubcategoryCount(context: Context): nat
  {
    if context == [] then 0
    else SubcategoryCount(context[..|context| - 1]) + |context[|context| - 1].1|
  }

  /**
   * The subcategory rows the command adds when the first category it creates
   * gets id `first`: each entry's block, in context order.
   */
  function SubcategoryRows(images: seq<Image>, context: Context, first: nat): (rows: seq<Subcategory>)
    ensures |rows| == SubcategoryCount(context)
  {
    if context == [] then []
    else
      var n := |context| - 1;
      SubcategoryRows(images, context[..n], first) + SubcategoryRowsFor(images, context[n].1, first + n)
  }

  /**
   * Subcategory `j` of entry `k` is the row after the subcategories of the
   * entries before `k`; it has its title, the id of entry `k`'s category as
   * parent, and the image its title resolves to.
   */
  lemma {:induction false} SubcategoryRowAt(images: seq<Image>, context: Context, first: nat, k: nat, j: nat)
    requires k < |context| && j < |context[k].1|
    ensures SubcategoryCount(context[..k]) + j < SubcategoryCount(context)
    ensures SubcategoryRows(images, context, first)[SubcategoryCount(context[..k]) + j]
         == Subcategory(context[k].1[j], first + k, SubcategoryImage(images, context[k].1[j]))
  {
    var n := |context| - 1;
    var before := context[..n];
    var head := SubcategoryRows(images, before, first);
    var block := SubcategoryRowsFor(images, context[n].1, first + n);
    assert SubcategoryRows(images, context, first) == head + block;
    assert SubcategoryCount(context) == |head| + |block|;
    if k == n {
      assert context[..k] == before;
      assert (head + block)[|head| + j] == block[j];
    } else {
      assert before[..k] == context[..k];
      assert before[k] == context[k];
      SubcategoryRowAt(images, before, first, k, j);
      assert (head + block)[SubcategoryCount(context[..k]) + j] == head[SubcategoryCount(context[..k]) + j];
    }
  }

  /**
   * Each subcategory the command adds points at the category row created for
   * its own context entry.
   */
  lemma SubcategoryParentIsItsCategory(existing: seq<Category>, images: seq<Image>, context: Context, k: nat, j: nat)
    requires k < |context| && j < |context[k].1|
    ensures SubcategoryCount(context[..k]) + j < SubcategoryCount(context)
    ensures var cats := existing + CategoryRows(images, context);
            var sub := SubcategoryRows(images, context, |existing|)[SubcategoryCount(context[..k]) + j];
            && sub.title == context[k].1[j]
            && sub.category < |cats|
            && cats[sub.category].title == context[k].0
  {
    SubcategoryRowAt(images, context, |existing|, k, j);
  }

  lemma {:induction false} CategoryRowsAppend(images: seq<Image>, context: Context, i: nat)
    requires i < |context|
    ensures CategoryRows(images, context[..i + 1])
         == CategoryRows(images, context[..i]) + [Category(context[i].0, CategoryImage(images, context[i].0))]
  {
    assert context[..i + 1][..i] == context[..i];
  }

  lemma {:induction false} SubcategoryRowsForAppend(images: seq<Image>, titles: seq<string>, parent: nat, j: nat)
    requires j < |titles|
    ensures SubcategoryRowsFor(images, titles[..j + 1], parent)
         == SubcategoryRowsFor(images, titles[..j], parent)
          + [Subcategory(titles[j], parent, SubcategoryImage(images, titles[j]))]
  {
    var longer := SubcategoryRowsFor(images, titles[..j + 1], parent);
    var shorter := SubcategoryRowsFor(images, titles[..j], parent);
    forall l | 0 <= l < j
      ensures longer[l] == shorter[l]
    {
      assert titles[..j + 1][l] == titles[..j][l];
    }
  }

  lemma {:induction false} SubcategoryRowsAppend(images: seq<Image>, context: Context, first: nat, i: nat)
    requires i < |context|
    ensures SubcategoryRows(images, context[..i + 1], first)
         == SubcategoryRows(images, context[..i], first) + SubcategoryRowsFor(images, context[i].1, first + i)
  {
    assert context[..i + 1][..i] == context[..i];
  }

  /** After the inner loop: the entry's whole block follows the earlier entries' rows. */
  lemma SubcategoryBlockDone(existing: seq<Subcategory>, images: seq<Image>, context: Context, first: nat, i: nat,
                             titles: seq<string>, parent: nat, blockStart: seq<Subcategory>, current: seq<Subcategory>)
    requires i < |context| && titles == context[i].1 && parent == first + i
    requires blockStart == existing + SubcategoryRows(images, context[..i], first)
    requires current == blockStart + SubcategoryRowsFor(images, titles, parent)
    ensures current == existing + SubcategoryRows(images, context[..i + 1], first)
  {
    SubcategoryRowsAppend(images, context, first, i);
    assert (existing + SubcategoryRows(images, context[..i], first)) + SubcategoryRowsFor(images, titles, parent)
        == existing + (SubcategoryRows(images, context[..i], first) + SubcategoryRowsFor(images, titles, parent));
  }

  /**
   * The inner loop of `handle`: create each subcategory under the category
   * `parent`, then look up and attach its image in the subcategory image list
   * `ids`, whose normalised file names are `names`.
   */
  method AddSubcategories(db: Database, images: seq<Image>, titles: seq<string>, parent: nat,
                          ids: seq<nat>, names: seq<string>)
    requires images == db.images
    requires ids == SubcategoryImageIds(images) && names == ImageNames(images, ids)
    requires forall j :: 0 <= j < |titles| ==> SubcategoryImage(images, titles[j]).Some?
    modifies db`subcategories
    ensures db.subcategories == old(db.subcategories) + SubcategoryRowsFor(images, titles, parent)
  {
    var j := 0;
    while j < |titles|
      invariant 0 <= j <= |titles|
      invariant db.subcategories == old(db.subcategories) + SubcategoryRowsFor(images, titles[..j], parent)
    {
      var title := titles[j];
      var image := PickImage(title, images, ids, names);
      var saved := Subcategory(title, parent, Some(image));
      db.subcategories := db.subcategories + [saved];
      SubcategoryRowsForAppend(images, titles, parent, j);
      assert (old(db.subcategories) + SubcategoryRowsFor(images, titles[..j], parent)) + [saved]
          == old(db.subcategories) + (SubcategoryRowsFor(images, titles[..j], parent) + [saved]);
      j := j + 1;
    }
    assert titles[..j] == titles;
  }

  /**
   * One pass of the outer loop of `handle`: create the category `title`, look
   * up and attach its image in the category image list, then create its
   * subcategories under it. The new category's id is returned.
   */
  method AddCategory(db: Database, images: seq<Image>, lists: ImageLists, title: string, subtitles: seq<string>)
    returns (parent: nat)
    requires images == db.images && Prepared(images, lists)
    requires EntryHasImages(images, title, subtitles)
    modifies db`categories, db`subcategories
    ensures parent == |old(db.categories)|
    ensures db.categories == old(db.categories) + [Category(title, CategoryImage(images, title))]
    ensures db.subcategories == old(db.subcategories) + SubcategoryRowsFor(images, subtitles, parent)
  {
    var image := PickImage(title, images, lists.categoryIds, lists.categoryNames);
    parent := |db.categories|;
    db.categories := db.categories + [Category(title, Some(image))];
    AddSubcategories(db, images, subtitles, parent, lists.subcategoryIds, lists.subcategoryNames);
  }

  /** The tables after one more entry, given the tables before it and what the entry added. */
  lemma EntryAdded(c0: seq<Category>, s0: seq<Subcategory>, images: seq<Image>, context: Context, i: nat,
                   categories: seq<Category>, subcategories: seq<Subcategory>, parent: nat,
                   categoriesAfter: seq<Category>, subcategoriesAfter: seq<Subcategory>)
    requires i < |context|
    requires categories == c0 + CategoryRows(images, context[..i])
    requires subcategories == s0 + SubcategoryRows(images, context[..i], |c0|)
    requires parent == |categories|
    requires categoriesAfter == categories + [Category(context[i].0, CategoryImage(images, context[i].0))]
    requires subcategoriesAfter == subcategories + SubcategoryRowsFor(images, context[i].1, parent)
    ensures categoriesAfter == c0 + CategoryRows(images, context[..i + 1])
    ensures subcategoriesAfter == s0 + SubcategoryRows(images, context[..i + 1], |c0|)
  {
    CategoryRowsAppend(images, context, i);
    assert (c0 + CategoryRows(images, context[..i])) + [Category(context[i].0, CategoryImage(images, context[i].0))]
        == c0 + (CategoryRows(images, context[..i]) + [Category(context[i].0, CategoryImage(images, context[i].0))]);
    SubcategoryBlockDone(s0, images, context, |c0|, i, context[i].1, parent, subcategories, subcategoriesAfter);
  }

  /**
   * The loop of `handle`: for each context entry in order, create its
   * category with the image its title resolves to, then its subcategories.
   */
  method AddEntries(db: Database, images: seq<Image>, lists: ImageLists, context: Context)
    requires images == db.images && Prepared(images, lists)
    requires EveryTitleHasImage(images, context)
    modifies db`categories, db`subcategories
    ensures db.categories == old(db.categories) + CategoryRows(images, context)
    ensures db.subcategories == old(db.subcategories) + SubcategoryRows(images, context, |old(db.categories)|)
  {
    var c0, s0 := db.categories, db.subcategories;
    var i := 0;
    while i < |context|
      invariant 0 <= i <= |context|
      invariant db.categories == c0 + CategoryRows(images, context[..i])
      invariant db.subcategories == s0 + SubcategoryRows(images, context[..i], |c0|)
    {
      var categories, subcategories := db.categories, db.subcategories;
      var parent := AddCategory(db, images, lists, context[i].0, context[i].1);
      EntryAdded(c0, s0, images, context, i, categories, subcategories, parent, db.categories, db.subcategories);
      i := i + 1;
    }
    assert context[..i] == context;
  }

  /**
   * The command's `handle`: select the category and the subcategory images
   * and list their normalised file names, then add every context entry.
   * Every title must resolve to an image and no image may end up on two rows
   * of one table; the command fails otherwise.
   */
  method UploadCategories(db: Database, context: Context)
    requires EveryTitleHasImage(db.images, context)
    requires CategoryImagesDistinct(db.categories + CategoryRows(db.images, context))
    requires SubcategoryImagesDistinct(db.subcategories + SubcategoryRows(db.images, context, |db.categories|))
    modifies db`categories, db`subcategories
    ensures db.categories == old(db.categories) + CategoryRows(db.images, context)
    ensures db.subcategories == old(db.subcategories) + SubcategoryRows(db.images, context, |old(db.categories)|)
  {
    var images := db.images;
    var categoryIds := CategoryImageIds(images);
    var subcategoryIds := SubcategoryImageIds(images);
    var lists := ImageLists(categoryIds, ImageNames(images, categoryIds),
                            subcategoryIds, ImageNames(images, subcategoryIds));
    AddEntries(db, images, lists, context);
  }
}

=== FILE: seed_products.dfy ===
/**
 * The product seed command (mysite/myshop/management/commands/upload_products_to_db.py):
 * `create_product` creates one `Product` per input record, attaches the image
 * its title resolves to, and attaches tags and specifications, reusing the
 * rows that already exist and creating the others.
 */
module SeedProducts {
  import opened Wrappers
  import opened Text
  import opened Tables
  import opened Models
  import opened ImageIndex

  // ---------------------------------------------------------------------------
  // Tags

  /** `product['tags']`: either one comma-separated string or a list of names. */
  datatype TagsValue = TagText(text: string) | TagList(names: seq<string>)

  /** The tag names the command iterates over: a string is split on `,`, a list is used as given. */
  function TagNames(tags: TagsValue): seq<string>
  {
    match tags
    case TagText(text) => Split(text, ',')
    case TagList(names) => names
  }

  /**
   * A tag string is cut at every comma and nowhere else: the names hold no
   * comma, there is one more name than there are commas, and nothing is
   * trimmed, so joining them back with commas gives the string again.
   */
  lemma TagTextSplitsAtCommas(text: string)
    ensures |TagNames(TagText(text))| == Occurrences(text, ',') + 1
    ensures forall k :: 0 <= k < |TagNames(TagText(text))| ==> ',' !in TagNames(TagText(text))[k]
    ensures Join(TagNames(TagText(text)), ',') == text
  {
    JoinSplit(text, ',');
  }

  /** A non-empty list of comma-free names, written as one string, gives the same names. */
  lemma TagTextOfJoinedNames(names: seq<string>)
    requires |names| >= 1
    requires forall k :: 0 <= k < |names| ==> ',' !in names[k]
    ensures TagNames(TagText(Join(names, ','))) == TagNames(TagList(names))
  {
    SplitJoin(names, ',');
  }

  // ---------------------------------------------------------------------------
  // Specifications

  /**
   * `product['specifications']`: either one string of comma-separated
   * `name-value` items, or a dict given as its items in iteration order
   * (values already written as strings).
   */
  datatype SpecsValue = SpecText(text: string) | SpecDict(items: seq<(string, string)>)

  /**
   * One item of a specification string: `(item.split('-')[0], item.split('-')[1])`.
   * An item without `-` has no second part and fails.
   */
  function SpecItem(item: string): Option<(string, string)>
  {
    var parts := Split(item, '-');
    if |parts| < 2 then None else Some((parts[0], parts[1]))
  }

  /** An item fails exactly when it holds no `-`. */
  lemma SpecItemFailsWithoutDash(item: string)
    ensures SpecItem(item).None? <==> '-' !in item
  {
    OccurrencesPositive(item, '-');
  }

  /**
   * A parsed item is the text before the first `-` and the text between the
   * first and the second `-` (or the end): neither holds a `-`, and the item
   * starts with them joined by `-`, followed by nothing or by another `-`.
   */
  lemma SpecItemParts(item: string)
    requires SpecItem(item).Some?
    ensures var (name, value) := SpecItem(item).value;
      && '-' !in name && '-' !in value
      && |name| + 1 + |value| <= |item|
      && item[..|name| + 1 + |value|] == name + "-" + value
      && (|name| + 1 + |value| == |item| || item[|name| + 1 + |value|] == '-')
  {
    var parts := Split(item, '-');
    JoinSplit(item, '-');
    var tail := Join(parts[1..], '-');
    assert item == parts[0] + "-" + tail;
    if |parts| == 2 {
      assert tail == parts[1];
      assert item == parts[0] + "-" + parts[1];
    } else {
      assert parts[1..][1..] == parts[2..];
      assert tail == parts[1] + "-" + Join(parts[2..], '-');
      assert item == (parts[0] + "-" + parts[1]) + ("-" + Join(parts[2..], '-'));
    }
  }

  /** The keys of a dict's item list, in order. */
  function Keys(d: seq<(string, string)>): (keys: seq<string>)
    ensures |keys| == |d|
  {
    seq(|d|, i requires 0 <= i < |d| => d[i].0)
  }

  /**
   * `d[name] = value` on a Python dict kept as its item list: an existing key
   * keeps its place and takes the new value, a new key goes last.
   */
  function DictPut(d: seq<(string, string)>, name: string, value: string): seq<(string, string)>
  {
    if name in Keys(d) then d[FirstIndex(Keys(d), name) := (name, value)] else d + [(name, value)]
  }

  /** The dict a comprehension builds from the pairs, in order. */
  function DictFrom(pairs: seq<(string, string)>): seq<(string, string)>
  {
    if pairs == [] then []
    else
      var n := |pairs| - 1;
      DictPut(DictFrom(pairs[..n]), pairs[n].0, pairs[n].1)
  }

  /** The pair of each item, or `None` when some item fails. */
  function ItemPairs(items: seq<string>): (pairs: Option<seq<(string, string)>>)
    ensures pairs.Some? ==> |pairs.value| == |items|
  {
    if items == [] then Some([])
    else
      var n := |items| - 1;
      match ItemPairs(items[..n])
      case None => None
      case Some(before) =>
        match SpecItem(items[n])
        case None => None
        case Some(pair) => Some(before + [pair])
  }

  /** The items parse unless one of them holds no `-`; each pair is its own item's. */
  lemma {:induction false} ItemPairsParseEachItem(items: seq<string>)
    ensures ItemPairs(items).None? <==> exists k :: 0 <= k < |items| && '-' !in items[k]
    ensures ItemPairs(items).Some? ==>
      forall k :: 0 <= k < |items| ==> SpecItem(items[k]) == Some(ItemPairs(items).value[k])
  {
    if items != [] {
      var n := |items| - 1;
      ItemPairsParseEachItem(items[..n]);
      SpecItemFailsWithoutDash(items[n]);
      forall k | 0 <= k < n
        ensures items[..n][k] == items[k]
      {
      }
      if ItemPairs(items[..n]).None? {
        var k :| 0 <= k < n && '-' !in items[..n][k];
        assert '-' !in items[k];
      }
    }
  }

  /** The dict comprehension over a specification string: `None` when it fails. */
  function ParseSpecifications(text: string): Option<seq<(string, string)>>
  {
    match ItemPairs(Split(text, ','))
    case None => None
    case Some(pairs) => Some(DictFrom(pairs))
  }

  /** Putting a key adds it to the key list unless it is there already. */
  lemma KeysOfDictPut(d: seq<(string, string)>, name: string, value: string)
    ensures Keys(DictPut(d, name, value)) == Insert(Keys(d), name)
  {
    if name in Keys(d) {
      var i := FirstIndex(Keys(d), name);
      assert Keys(DictPut(d, name, value)) == Keys(d)[i := name];
    } else {
      assert Keys(DictPut(d, name, value)) == Keys(d) + [name];
    }
  }

  /**
   * The dict's keys are the pairs' keys in the order each first appears, each
   * once: the same list a get-or-create over the keys registers.
   */
  lemma {:induction false} DictFromKeysInFirstOrder(pairs: seq<(string, string)>)
    ensures Keys(DictFrom(pairs)) == Registered([], Keys(pairs))
  {
    if pairs != [] {
      var n := |pairs| - 1;
      DictFromKeysInFirstOrder(pairs[..n]);
      KeysOfDictPut(DictFrom(pairs[..n]), pairs[n].0, pairs[n].1);
      assert Keys(pairs)[..n] == Keys(pairs[..n]);
    }
  }

  /** No key of the dict occurs twice. */
  lemma DictFromKeysDistinct(pairs: seq<(string, string)>)
    ensures forall i, j :: 0 <= i < j < |DictFrom(pairs)| ==> DictFrom(pairs)[i].0 != DictFrom(pairs)[j].0
  {
    DictFromKeysInFirstOrder(pairs);
    RegisteredCreatesEachNewKeyOnce([], Keys(pairs));
    var keys := Keys(DictFrom(pairs));
    assert forall i :: 0 <= i < |keys| ==> keys[i] == DictFrom(pairs)[i].0;
  }

  /** The value of the last pair with key `name`. */
  function LastValue(pairs: seq<(string, string)>, name: string): string
    requires name in Keys(pairs)
  {
    var n := |pairs| - 1;
    if pairs[n].0 == name then pairs[n].1
    else
      assert name in Keys(pairs[..n]) by {
        var i :| 0 <= i < |pairs| && Keys(pairs)[i] == name;
        assert Keys(pairs[..n])[i] == name;
      }
      LastValue(pairs[..n], name)
  }

  /** Every key of the dict holds the value of the last pair with that key. */
  lemma {:induction false} DictFromLastValueWins(pairs: seq<(string, string)>)
    ensures forall i :: 0 <= i < |DictFrom(pairs)| ==>
      DictFrom(pairs)[i].0 in Keys(pairs) && DictFrom(pairs)[i].1 == LastValue(pairs, DictFrom(pairs)[i].0)
  {
    if pairs != [] {
      var n := |pairs| - 1;
      var before := DictFrom(pairs[..n]);
      var d := DictFrom(pairs);
      DictFromLastValueWins(pairs[..n]);
      DictFromKeysDistinct(pairs[..n]);
      forall i | 0 <= i < |d|
        ensures d[i].0 in Keys(pairs) && d[i].1 == LastValue(pairs, d[i].0)
      {
        assert Keys(pairs)[n] == pairs[n].0;
        if d[i].0 == pairs[n].0 {
          DictPutHoldsValue(before, pairs[n].0, pairs[n].1, i);
        } else {
          DictPutKeepsOthers(before, pairs[n].0, pairs[n].1, i);
          var k :| 0 <= k < |pairs[..n]| && Keys(pairs[..n])[k] == d[i].0;
          assert Keys(pairs)[k] == d[i].0;
        }
      }
    }
  }

  /** After a put into a dict with distinct keys, the entry with the put key holds the put value. */
  lemma DictPutHoldsValue(d: seq<(string, string)>, name: string, value: string, i: nat)
    requires forall a, b :: 0 <= a < b < |d| ==> d[a].0 != d[b].0
    requires i < |DictPut(d, name, value)| && DictPut(d, name, value)[i].0 == name
    ensures DictPut(d, name, value)[i].1 == value
  {
    if name in Keys(d) {
      var j := FirstIndex(Keys(d), name);
      assert d[j].0 == Keys(d)[j] == name;
    } else {
      assert forall k :: 0 <= k < |d| ==> Keys(d)[k] == d[k].0;
    }
  }

  /** A put leaves every entry with another key where and as it was. */
  lemma DictPutKeepsOthers(d: seq<(string, string)>, name: string, value: string, i: nat)
    requires i < |DictPut(d, name, value)| && DictPut(d, name, value)[i].0 != name
    ensures i < |d| && DictPut(d, name, value)[i] == d[i]
  {
  }

  // ---------------------------------------------------------------------------
  // Creating products

  /** One record of the command's context. Prices are whole cents, ratings whole tenths. */
  datatype ProductInput = ProductInput(
    category: string, price: int, count: nat, title: string, description: string,
    fullDescription: Option<string>, freeDelivery: bool,
    tags: TagsValue, specifications: SpecsValue, rating: int)

  /** The specifications of a record can be read: a string must parse. */
  predicate SpecsParse(specs: SpecsValue)
  {
    specs.SpecText? ==> ParseSpecifications(specs.text).Some?
  }

  /**
   * The `(name, value)` pairs the command iterates over, in order. A string
   * that does not parse makes the command fail before any pair is used, so
   * it stands for no pairs here.
   */
  function SpecPairs(specs: SpecsValue): seq<(string, string)>
  {
    match specs
    case SpecText(text) => (match ParseSpecifications(text) case Some(d) => d case None => [])
    case SpecDict(items) => items
  }

  /** The ids of the subcategories titled `title`, in id order: what `filter(title=...)` selects. */
  function SubcategoriesTitled(subcategories: seq<Subcategory>, title: string): (ids: seq<nat>)
    ensures forall k :: 0 <= k < |ids| ==> ids[k] < |subcategories|
  {
    if subcategories == [] then []
    else
      var n := |subcategories| - 1;
      var before := SubcategoriesTitled(subcategories[..n], title);
      if subcategories[n].title == title then before + [n] else before
  }

  /** The selection holds every subcategory with the title and nothing else. */
  lemma {:induction false} SubcategoriesTitledSelects(subcategories: seq<Subcategory>, title: string)
    ensures forall k :: 0 <= k < |SubcategoriesTitled(subcategories, title)| ==>
      subcategories[SubcategoriesTitled(subcategories, title)[k]].title == title
    ensures forall i :: 0 <= i < |subcategories| && subcategories[i].title == title ==>
      i in SubcategoriesTitled(subcategories, title)
  {
    if subcategories != [] {
      var n := |subcategories| - 1;
      SubcategoriesTitledSelects(subcategories[..n], title);
      forall i | 0 <= i < n
        ensures subcategories[..n][i] == subcategories[i]
      {
      }
    }
  }

  /**
   * `Subcategory.objects.get(title=...)` succeeds only when exactly one row has
   * the title; that row is then the only one with it.
   */
  lemma GetFindsTheOnlyTitledRow(subcategories: seq<Subcategory>, title: string)
    requires |SubcategoriesTitled(subcategories, title)| == 1
    ensures var id := SubcategoriesTitled(subcategories, title)[0];
      && subcategories[id].title == title
      && forall i :: 0 <= i < |subcategories| && subcategories[i].title == title ==> i == id
  {
    SubcategoriesTitledSelects(subcategories, title);
  }

  /** What a record needs for `create_product` not to fail on it. */
  predicate Creatable(subcategories: seq<Subcategory>, images: seq<Image>, input: ProductInput)
  {
    && |SubcategoriesTitled(subcategories, input.category)| == 1
    && ImageFor(input.title, images, AllImages(images)).Some?
    && SpecsParse(input.specifications)
  }

  /**
   * The product row `row` is the one created from `input`: its fields are the
   * record's, its category the subcategory titled as the record says, its
   * image the one its title resolves to among all images, and its tags and
   * specifications the rows the record's names and pairs resolve to.
   */
  predicate Describes(row: ProductRow, input: ProductInput, subcategories: seq<Subcategory>,
                      images: seq<Image>, tags: seq<string>, specifications: seq<(string, string)>)
  {
    && SubcategoriesTitled(subcategories, input.category) == [row.category]
    && row.price == input.price && row.count == input.count && row.title == input.title
    && row.description == input.description && row.fullDescription == input.fullDescription
    && row.freeDelivery == input.freeDelivery && row.rating == input.rating
    && ImageFor(input.title, images, AllImages(images)).Some?
    && row.images == {ImageFor(input.title, images, AllImages(images)).value}
    && (forall k :: 0 <= k < |TagNames(input.tags)| ==> TagNames(input.tags)[k] in tags)
    && row.tags == RowIds(tags, TagNames(input.tags))
    && (forall k :: 0 <= k < |SpecPairs(input.specifications)| ==> SpecPairs(input.specifications)[k] in specifications)
    && row.specifications == RowIds(specifications, SpecPairs(input.specifications))
  }

  /**
   * `tags_queryset.filter(name=tag)`: reuse the first tag with the name, or
   * create one; the id of the tag to attach is returned.
   */
  method GetOrCreateTag(db: Database, name: string) returns (id: nat)
    modifies db`tags
    ensures db.tags == Insert(old(db.tags), name)
    ensures name in db.tags && id == FirstIndex(db.tags, name)
  {
    if name in db.tags {
      id := FirstIndex(db.tags, name);
    } else {
      db.tags := db.tags + [name];
      id := |db.tags| - 1;
    }
  }

  /**
   * `specifications_queryset.filter(name=name, value=value)`: reuse the first
   * specification with the pair, or create one; its id is returned.
   */
  method GetOrCreateSpecification(db: Database, pair: (string, string)) returns (id: nat)
    modifies db`specifications
    ensures db.specifications == Insert(old(db.specifications), pair)
    ensures pair in db.specifications && id == FirstIndex(db.specifications, pair)
  {
    if pair in db.specifications {
      id := FirstIndex(db.specifications, pair);
    } else {
      db.specifications := db.specifications + [pair];
      id := |db.specifications| - 1;
    }
  }

  /** The tag loop: get-or-create each name in turn and add its row to the product's tags. */
  method AddTags(db: Database, p: Product, names: seq<string>)
    modifies db`tags, p`tags
    ensures db.tags == Registered(old(db.tags), names)
    ensures p.tags == old(p.tags) + RowIds(db.tags, names)
  {
    var j := 0;
    while j < |names|
      invariant 0 <= j <= |names|
      invariant db.tags == Registered(old(db.tags), names[..j])
      invariant p.tags == old(p.tags) + RowIds(db.tags, names[..j])
    {
      var before := db.tags;
      var id := GetOrCreateTag(db, names[j]);
      p.tags := p.tags + {id};
      RowIdsExtend(before, db.tags, names[..j], names[j]);
      assert names[..j + 1] == names[..j] + [names[j]];
      j := j + 1;
    }
    assert names[..j] == names;
  }

  /** The specification loop: get-or-create each pair in turn and add its row to the product. */
  method AddSpecifications(db: Database, p: Product, pairs: seq<(string, string)>)
    modifies db`specifications, p`specifications
    ensures db.specifications == Registered(old(db.specifications), pairs)
    ensures p.specifications == old(p.specifications) + RowIds(db.specifications, pairs)
  {
    var j := 0;
    while j < |pairs|
      invariant 0 <= j <= |pairs|
      invariant db.specifications == Registered(old(db.specifications), pairs[..j])
      invariant p.specifications == old(p.specifications) + RowIds(db.specifications, pairs[..j])
    {
      var before := db.specifications;
      var id := GetOrCreateSpecification(db, pairs[j]);
      p.specifications := p.specifications + {id};
      RowIdsExtend(before, db.specifications, pairs[..j], pairs[j]);
      assert pairs[..j + 1] == pairs[..j] + [pairs[j]];
      j := j + 1;
    }
    assert pairs[..j] == pairs;
  }

  /** The tag names of all records, in order. */
  function AllTagNames(context: seq<ProductInput>): seq<string>
  {
    if context == [] then []
    else AllTagNames(context[..|context| - 1]) + TagNames(context[|context| - 1].tags)
  }

  /** The specification pairs of all records, in order. */
  function AllSpecPairs(context: seq<ProductInput>): seq<(string, string)>
  {
    if context == [] then []
    else AllSpecPairs(context[..|context| - 1]) + SpecPairs(context[|context| - 1].specifications)
  }

  /**
   * The start of one pass of the loop of `create_product`: `.get` the
   * subcategory, look up the image by title among all images, create the
   * product and attach the image.
   */
  method NewProduct(db: Database, input: ProductInput, names: seq<string>) returns (p: Product)
    requires names == ImageNames(db.images, AllImages(db.images))
    requires Creatable(db.subcategories, db.images, input)
    ensures fresh(p)
    ensures SubcategoriesTitled(db.subcategories, input.category) == [p.category]
    ensures p.price == input.price && p.count == input.count && p.title == input.title
    ensures p.description == input.description && p.fullDescription == input.fullDescription
    ensures p.freeDelivery == input.freeDelivery && p.rating == input.rating
    ensures p.images == {ImageFor(input.title, db.images, AllImages(db.images)).value}
    ensures p.tags == {} && p.specifications == {}
  {
    var category := SubcategoriesTitled(db.subcategories, input.category)[0];
    var image := PickImage(input.title, db.images, AllImages(db.images), names);
    p := new Product(category, input.price, input.count, input.title, input.description,
                     input.fullDescription, input.freeDelivery, input.rating);
    p.images := p.images + {image};
  }

  /**
   * One pass of the loop of `create_product`: create the product with its
   * image, then attach its tags and its specifications.
   */
  method CreateProduct(db: Database, input: ProductInput, names: seq<string>) returns (p: Product)
    requires names == ImageNames(db.images, AllImages(db.images))
    requires Creatable(db.subcategories, db.images, input)
    modifies db`tags, db`specifications
    ensures fresh(p)
    ensures db.tags == Registered(old(db.tags), TagNames(input.tags))
    ensures db.specifications == Registered(old(db.specifications), SpecPairs(input.specifications))
    ensures Describes(p.Row(), input, db.subcategories, db.images, db.tags, db.specifications)
  {
    p := NewProduct(db, input, names);
    AddTags(db, p, TagNames(input.tags));
    AddSpecifications(db, p, SpecPairs(input.specifications));
  }

  /** Rows appended to the tables later do not change what earlier products were described with. */
  lemma DescriptionsKept(rows: seq<ProductRow>, context: seq<ProductInput>, subcategories: seq<Subcategory>,
                         images: seq<Image>, tags: seq<string>, specifications: seq<(string, string)>,
                         tagsAfter: seq<string>, specificationsAfter: seq<(string, string)>)
    requires |rows| <= |context|
    requires forall k :: 0 <= k < |rows| ==>
      Describes(rows[k], context[k], subcategories, images, tags, specifications)
    requires |tags| <= |tagsAfter| && tagsAfter[..|tags|] == tags
    requires |specifications| <= |specificationsAfter| && specificationsAfter[..|specifications|] == specifications
    ensures forall k :: 0 <= k < |rows| ==>
      Describes(rows[k], context[k], subcategories, images, tagsAfter, specificationsAfter)
  {
    forall k | 0 <= k < |rows|
      ensures Describes(rows[k], context[k], subcategories, images, tagsAfter, specificationsAfter)
    {
      RowIdsStable(tags, tagsAfter, TagNames(context[k].tags));
      RowIdsStable(specifications, specificationsAfter, SpecPairs(context[k].specifications));
    }
  }

  /** A product described by the tables joins the earlier products described by them. */
  lemma DescriptionAppended(rows: seq<ProductRow>, row: ProductRow, context: seq<ProductInput>,
                            subcategories: seq<Subcategory>, images: seq<Image>,
                            tags: seq<string>, specifications: seq<(string, string)>)
    requires |rows| < |context|
    requires forall k :: 0 <= k < |rows| ==>
      Describes(rows[k], context[k], subcategories, images, tags, specifications)
    requires Describes(row, context[|rows|], subcategories, images, tags, specifications)
    ensures forall k :: 0 <= k < |rows| + 1 ==>
      Describes((rows + [row])[k], context[k], subcategories, images, tags, specifications)
  {
    forall k | 0 <= k < |rows| + 1
      ensures Describes((rows + [row])[k], context[k], subcategories, images, tags, specifications)
    {
      if k < |rows| {
        assert (rows + [row])[k] == rows[k];
      } else {
        assert (rows + [row])[k] == row;
      }
    }
  }

  /** The tables after one more record have registered its names and pairs after the earlier records'. */
  lemma TablesAfterRecord(context: seq<ProductInput>, i: nat,
                          tags0: seq<string>, specifications0: seq<(string, string)>,
                          tags: seq<string>, specifications: seq<(string, string)>,
                          tagsAfter: seq<string>, specificationsAfter: seq<(string, string)>)
    requires i < |context|
    requires tags == Registered(tags0, AllTagNames(context[..i]))
    requires specifications == Registered(specifications0, AllSpecPairs(context[..i]))
    requires tagsAfter == Registered(tags, TagNames(context[i].tags))
    requires specificationsAfter == Registered(specifications, SpecPairs(context[i].specifications))
    ensures tagsAfter == Registered(tags0, AllTagNames(context[..i + 1]))
    ensures specificationsAfter == Registered(specifications0, AllSpecPairs(context[..i + 1]))
  {
    assert context[..i + 1][..i] == context[..i];
    RegisteredAppend(tags0, AllTagNames(context[..i]), TagNames(context[i].tags));
    RegisteredAppend(specifications0, AllSpecPairs(context[..i]), SpecPairs(context[i].specifications));
  }

  /**
   * The state after one more record of `create_product`: the tables have
   * registered its names and pairs after the earlier records', and the
   * earlier products and the new one are all described by the grown tables.
   */
  lemma RecordDone(rows: seq<ProductRow>, row: ProductRow, context: seq<ProductInput>, i: nat,
                   subcategories: seq<Subcategory>, images: seq<Image>,
                   tags0: seq<string>, specifications0: seq<(string, string)>,
                   tags: seq<string>, specifications: seq<(string, string)>,
                   tagsAfter: seq<string>, specificationsAfter: seq<(string, string)>)
    requires i < |context| && |rows| == i
    requires tags == Registered(tags0, AllTagNames(context[..i]))
    requires specifications == Registered(specifications0, AllSpecPairs(context[..i]))
    requires forall k :: 0 <= k < i ==>
      Describes(rows[k], context[k], subcategories, images, tags, specifications)
    requires tagsAfter == Registered(tags, TagNames(context[i].tags))
    requires specificationsAfter == Registered(specifications, SpecPairs(context[i].specifications))
    requires Describes(row, context[i], subcategories, images, tagsAfter, specificationsAfter)
    ensures tagsAfter == Registered(tags0, AllTagNames(context[..i + 1]))
    ensures specificationsAfter == Registered(specifications0, AllSpecPairs(context[..i + 1]))
    ensures forall k :: 0 <= k < i + 1 ==>
      Describes((rows + [row])[k], context[k], subcategories, images, tagsAfter, specificationsAfter)
  {
    TablesAfterRecord(context, i, tags0, specifications0, tags, specifications, tagsAfter, specificationsAfter);
    DescriptionsKept(rows, context, subcategories, images, tags, specifications, tagsAfter, specificationsAfter);
    DescriptionAppended(rows, row, context, subcategories, images, tagsAfter, specificationsAfter);
  }

  /** The state after the first `i` records: the tables so far and the products made from them. */
  ghost predicate RecordsDone(db: Database, tags0: seq<string>, specifications0: seq<(string, string)>,
                              context: seq<ProductInput>, i: nat, created: seq<Product>, rows: seq<ProductRow>)
    reads db
  {
    && i <= |context| && |created| == i && |rows| == i
    && db.tags == Registered(tags0, AllTagNames(context[..i]))
    && db.specifications == Registered(specifications0, AllSpecPairs(context[..i]))
    && (forall k :: 0 <= k < i ==>
        Describes(rows[k], context[k], db.subcategories, db.images, db.tags, db.specifications))
  }

  /** After the last record, the tables and the products are those of the whole context. */
  lemma AllRecordsDone(db: Database, tags0: seq<string>, specifications0: seq<(string, string)>,
                       context: seq<ProductInput>, created: seq<Product>, rows: seq<ProductRow>)
    requires RecordsDone(db, tags0, specifications0, context, |context|, created, rows)
    requires forall k :: 0 <= k < |context| ==> created[k].Row() == rows[k]
    ensures |created| == |context|
    ensures db.tags == Registered(tags0, AllTagNames(context))
    ensures db.specifications == Registered(specifications0, AllSpecPairs(context))
    ensures forall k :: 0 <= k < |context| ==>
      Describes(created[k].Row(), context[k], db.subcategories, db.images, db.tags, db.specifications)
  {
    assert context[..|context|] == context;
  }

  /**
   * One pass of the loop of `create_product` as the loop sees it: the new
   * product joins the earlier ones and every product is described by the
   * grown tables.
   */
  method CreateNext(db: Database, context: seq<ProductInput>, names: seq<string>, i: nat,
                    created: seq<Product>, ghost rows: seq<ProductRow>,
                    ghost tags0: seq<string>, ghost specifications0: seq<(string, string)>)
      returns (createdAfter: seq<Product>, ghost rowsAfter: seq<ProductRow>)
    requires names == ImageNames(db.images, AllImages(db.images))
    requires i < |context| && Creatable(db.subcategories, db.images, context[i])
    requires RecordsDone(db, tags0, specifications0, context, i, created, rows)
    requires forall k :: 0 <= k < i ==> created[k].Row() == rows[k]
    modifies db`tags, db`specifications
    ensures |createdAfter| == i + 1 && createdAfter[..i] == created && fresh(createdAfter[i])
    ensures RecordsDone(db, tags0, specifications0, context, i + 1, createdAfter, rowsAfter)
    ensures forall k :: 0 <= k < i + 1 ==> createdAfter[k].Row() == rowsAfter[k]
  {
    var tags, specifications := db.tags, db.specifications;
    var p := CreateProduct(db, context[i], names);
    RecordDone(rows, p.Row(), context, i, db.subcategories, db.images, tags0, specifications0,
               tags, specifications, db.tags, db.specifications);
    createdAfter, rowsAfter := created + [p], rows + [p.Row()];
    assert createdAfter[..i] == created;
  }

  /**
   * `create_product(context)`: one product per record, in order, each with
   * the rows its tags and specifications resolve to once all records are
   * done. The tag and specification tables grow by get-or-create over all
   * records' names and pairs in turn. The products created are returned in
   * creation order.
   */
  method CreateProducts(db: Database, context: seq<ProductInput>) returns (created: seq<Product>)
    requires forall k :: 0 <= k < |context| ==> Creatable(db.subcategories, db.images, context[k])
    modifies db`tags, db`specifications
    ensures |created| == |context|
    ensures db.tags == Registered(old(db.tags), AllTagNames(context))
    ensures db.specifications == Registered(old(db.specifications), AllSpecPairs(context))
    ensures forall k :: 0 <= k < |context| ==> fresh(created[k])
    ensures forall k :: 0 <= k < |context| ==>
      Describes(created[k].Row(), context[k], db.subcategories, db.images, db.tags, db.specifications)
  {
    var names := ImageNames(db.images, AllImages(db.images));
    created := [];
    ghost var rows: seq<ProductRow> := [];
    var i := 0;
    while i < |context|
      invariant i <= |context| && |created| == i && |rows| == i
      invariant RecordsDone(db, old(db.tags), old(db.specifications), context, i, created, rows)
      invariant forall k :: 0 <= k < i ==> fresh(created[k])
      invariant forall k :: 0 <= k < i ==> created[k].Row() == rows[k]
    {
      ghost var before := created;
      created, rows := CreateNext(db, context, names, i, created, rows, old(db.tags), old(db.specifications));
      assert forall k :: 0 <= k < i ==> created[k] == before[k];
      i := i + 1;
    }
    AllRecordsDone(db, old(db.tags), old(db.specifications), context, created, rows);
  }
}

=== FILE: tables.dfy ===
/**
 * Get-or-create on an ORM table whose rows are identified by their position
 * (the row id) and looked up by a key: the pattern the product seed command
 * applies to `Tag` (keyed by name) and `Specification` (keyed by the
 * `(name, value)` pair). A lookup returns the first matching row, as
 * `queryset.filter(...)[0]` does on a table read in id order.
 */
module Tables {

  /** Position of the first row equal to `x`. */
  function FirstIndex<T(==)>(table: seq<T>, x: T): (i: nat)
    requires x in table
    ensures i < |table| && table[i] == x
  {
    if table[0] == x then 0 else 1 + FirstIndex(table[1..], x)
  }

  /** No row before the one `FirstIndex` finds holds the key. */
  lemma {:induction false} FirstIndexIsFirst<T>(table: seq<T>, x: T)
    requires x in table
    ensures forall j :: 0 <= j < FirstIndex(table, x) ==> table[j] != x
  {
    if table[0] != x {
      FirstIndexIsFirst(table[1..], x);
      forall j | 1 <= j < FirstIndex(table, x)
        ensures table[j] == table[1..][j - 1]
      {
      }
    }
  }

  /** One get-or-create: an existing row is reused, otherwise one row is appended. */
  function Insert<T(==)>(table: seq<T>, x: T): seq<T>
  {
    if x in table then table else table + [x]
  }

  /** The table after get-or-create of every key of `keys`, in order. */
  function Registered<T(==, !new)>(table: seq<T>, keys: seq<T>): (r: seq<T>)
    ensures |table| <= |r| && r[..|table|] == table
    ensures forall x :: x in r <==> x in table || x in keys
  {
    if keys == [] then table
    else
      var before := Registered(table, keys[..|keys| - 1]);
      assert forall x :: x in keys <==> x in keys[..|keys| - 1] || x == keys[|keys| - 1] by {
        assert keys == keys[..|keys| - 1] + [keys[|keys| - 1]];
      }
      Insert(before, keys[|keys| - 1])
  }

  /** Appending rows never changes which row a key that was present resolves to. */
  lemma {:induction false} FirstIndexStable<T>(table: seq<T>, longer: seq<T>, x: T)
    requires x in table
    requires |table| <= |longer| && longer[..|table|] == table
    ensures x in longer && FirstIndex(longer, x) == FirstIndex(table, x)
  {
    var i := FirstIndex(table, x);
    FirstIndexIsFirst(table, x);
    FirstIndexIsFirst(longer, x);
    assert longer[i] == table[i];
    forall j | 0 <= j < i ensures longer[j] != x {
      assert longer[j] == table[j];
    }
  }

  /** A key already in the table is reused: its row is the one it had before. */
  lemma RegisteredReuses<T(!new)>(table: seq<T>, keys: seq<T>, x: T)
    requires x in table
    ensures FirstIndex(Registered(table, keys), x) == FirstIndex(table, x)
  {
    FirstIndexStable(table, Registered(table, keys), x);
  }

  /** When every key is already present, nothing is created. */
  lemma {:induction false} RegisteredNothingNew<T(!new)>(table: seq<T>, keys: seq<T>)
    requires forall k :: 0 <= k < |keys| ==> keys[k] in table
    ensures Registered(table, keys) == table
  {
    if keys != [] {
      RegisteredNothingNew(table, keys[..|keys| - 1]);
    }
  }

  /**
   * The rows created are new keys only, each created once: none of them was
   * in the table before and no two of them are equal.
   */
  ghost predicate OnlyNewDistinctRows<T>(table: seq<T>, r: seq<T>)
  {
    && (forall i :: |table| <= i < |r| ==> r[i] !in table)
    && (forall i, j :: |table| <= i < j < |r| ==> r[i] != r[j])
  }

  /** Registering the keys of `keys` creates only new keys, each once. */
  lemma {:induction false} RegisteredCreatesEachNewKeyOnce<T(!new)>(table: seq<T>, keys: seq<T>)
    ensures OnlyNewDistinctRows(table, Registered(table, keys))
  {
    if keys != [] {
      var before := Registered(table, keys[..|keys| - 1]);
      RegisteredCreatesEachNewKeyOnce(table, keys[..|keys| - 1]);
      var x := keys[|keys| - 1];
      if x !in before {
        var r := before + [x];
        assert Registered(table, keys) == r;
        forall i | |table| <= i < |r| ensures r[i] !in table {
          if i < |before| {
            assert r[i] == before[i];
          }
        }
        forall i, j | |table| <= i < j < |r| ensures r[i] != r[j] {
          assert r[i] == before[i];
          if j < |before| {
            assert r[j] == before[j];
          }
        }
      } else {
        assert Registered(table, keys) == before;
      }
    }
  }

  /** Registering two key lists one after the other registers their concatenation. */
  lemma {:induction false} RegisteredAppend<T(!new)>(table: seq<T>, a: seq<T>, b: seq<T>)
    ensures Registered(Registered(table, a), b) == Registered(table, a + b)
  {
    if b == [] {
      assert a + b == a;
    } else {
      var n := |b| - 1;
      RegisteredAppend(table, a, b[..n]);
      assert (a + b)[..|a + b| - 1] == a + b[..n];
      assert (a + b)[|a + b| - 1] == b[n];
    }
  }

  /**
   * The ids of the rows `keys` resolve to: the set a many-to-many relation
   * holds after `add` of each key's row. A key with no row adds nothing.
   */
  function RowIds<T(==)>(table: seq<T>, keys: seq<T>): (ids: set<nat>)
    ensures forall id :: id in ids ==> id < |table|
  {
    set k | 0 <= k < |keys| && keys[k] in table :: FirstIndex(table, keys[k])
  }

  /**
   * The rows a key list resolves to are exactly the rows that hold one of
   * the keys and are the first row holding it.
   */
  lemma RowIdsAreFirstRowsOfKeys<T>(table: seq<T>, keys: seq<T>, id: nat)
    requires forall k :: 0 <= k < |keys| ==> keys[k] in table
    ensures id in RowIds(table, keys) <==>
      id < |table| && table[id] in keys && forall j :: 0 <= j < id ==> table[j] != table[id]
  {
    if id < |table| && table[id] in keys && forall j :: 0 <= j < id ==> table[j] != table[id] {
      var k :| 0 <= k < |keys| && keys[k] == table[id];
      FirstIndexIsFirst(table, keys[k]);
      assert id == FirstIndex(table, keys[k]);
    }
    if id in RowIds(table, keys) {
      var k :| 0 <= k < |keys| && id == FirstIndex(table, keys[k]);
      FirstIndexIsFirst(table, keys[k]);
    }
  }

  /** Rows appended to the table do not change what an existing key list resolves to. */
  lemma RowIdsStable<T>(table: seq<T>, longer: seq<T>, keys: seq<T>)
    requires forall k :: 0 <= k < |keys| ==> keys[k] in table
    requires |table| <= |longer| && longer[..|table|] == table
    ensures forall k :: 0 <= k < |keys| ==> keys[k] in longer
    ensures RowIds(longer, keys) == RowIds(table, keys)
  {
    forall k | 0 <= k < |keys|
      ensures keys[k] in longer && FirstIndex(longer, keys[k]) == FirstIndex(table, keys[k])
    {
      FirstIndexStable(table, longer, keys[k]);
    }
  }

  /** One more key resolved against a grown table adds that key's row. */
  lemma RowIdsExtend<T>(table: seq<T>, longer: seq<T>, keys: seq<T>, x: T)
    requires forall k :: 0 <= k < |keys| ==> keys[k] in table
    requires |table| <= |longer| && longer[..|table|] == table
    requires x in longer
    ensures forall k :: 0 <= k < |keys + [x]| ==> (keys + [x])[k] in longer
    ensures RowIds(longer, keys + [x]) == RowIds(table, keys) + {FirstIndex(longer, x)}
  {
    RowIdsStable(table, longer, keys);
    var more := keys + [x];
    assert forall k :: 0 <= k < |keys| ==> more[k] == keys[k];
    assert more[|keys|] == x;
  }
}

=== FILE: text.dfy ===
/**
 * The few Python string operations the seed commands rely on, over `string`
 * (a sequence of Unicode scalar values, as a Python `str` is):
 * `s.split(sep)` for a one-character separator, `sep.join(pieces)`,
 * character replacement, `s.lower()` and the substring test `needle in hay`.
 */
module Text {

  /** Number of occurrences of `c` in `s`. */
  function Occurrences(s: string, c: char): nat
  {
    if s == [] then 0 else (if s[0] == c then 1 else 0) + Occurrences(s[1..], c)
  }

  /** A character occurs a positive number of times exactly when it is in the string. */
  lemma {:induction false} OccurrencesPositive(s: string, c: char)
    ensures Occurrences(s, c) > 0 <==> c in s
  {
    if s != [] {
      OccurrencesPositive(s[1..], c);
      assert s == [s[0]] + s[1..];
    }
  }

  /**
   * Python's `s.split(sep)` with a one-character separator: the pieces between
   * separators, empty pieces kept, never an empty list (`"".split(",") == [""]`).
   */
  function Split(s: string, sep: char): (pieces: seq<string>)
    ensures |pieces| == Occurrences(s, sep) + 1
    ensures forall i :: 0 <= i < |pieces| ==> sep !in pieces[i]
  {
    if s == [] then [""]
    else
      var rest := Split(s[1..], sep);
      if s[0] == sep then [""] + rest
      else [[s[0]] + rest[0]] + rest[1..]
  }

  /** Python's `sep.join(pieces)`. */
  function Join(pieces: seq<string>, sep: char): string
  {
    if |pieces| == 0 then ""
    else if |pieces| == 1 then pieces[0]
    else pieces[0] + [sep] + Join(pieces[1..], sep)
  }

  /** Every occurrence of `a` in `s` replaced by `b` (`s.replace(a, b)` for characters). */
  function Replace(s: string, a: char, b: char): (r: string)
    ensures |r| == |s|
    ensures forall i :: 0 <= i < |s| ==> r[i] == (if s[i] == a then b else s[i])
  {
    if s == [] then "" else [if s[0] == a then b else s[0]] + Replace(s[1..], a, b)
  }

  lemma {:induction false} JoinConsHead(x: char, pieces: seq<string>, sep: char)
    requires |pieces| >= 1
    ensures Join([[x] + pieces[0]] + pieces[1..], sep) == [x] + Join(pieces, sep)
  {
    var ps := [[x] + pieces[0]] + pieces[1..];
    if |pieces| > 1 {
      assert ps[1..] == pieces[1..];
    }
  }

  /** Joining the pieces of a split with the same separator gives back the string. */
  lemma {:induction false} JoinSplit(s: string, sep: char)
    ensures Join(Split(s, sep), sep) == s
  {
    if s != [] {
      var rest := Split(s[1..], sep);
      JoinSplit(s[1..], sep);
      if s[0] == sep {
        assert ([""] + rest)[1..] == rest;
      } else {
        JoinConsHead(s[0], rest, sep);
      }
      assert s == [s[0]] + s[1..];
    }
  }

  lemma {:induction false} SplitPrepend(a: string, b: string, sep: char)
    requires sep !in a
    ensures Split(a + b, sep) == [a + Split(b, sep)[0]] + Split(b, sep)[1..]
  {
    if a != [] {
      assert (a + b)[1..] == a[1..] + b;
      SplitPrepend(a[1..], b, sep);
      var rest := Split(a[1..] + b, sep);
      assert rest[0] == a[1..] + Split(b, sep)[0];
      assert rest[1..] == Split(b, sep)[1..];
      assert Split(a + b, sep) == [[a[0]] + rest[0]] + rest[1..];
      assert [a[0]] + (a[1..] + Split(b, sep)[0]) == a + Split(b, sep)[0];
    } else {
      assert a + b == b;
      assert a + Split(b, sep)[0] == Split(b, sep)[0];
      assert [a + Split(b, sep)[0]] + Split(b, sep)[1..] == Split(b, sep);
    }
  }

  /** Splitting separator-free pieces joined by that separator gives back the pieces. */
  lemma {:induction false} SplitJoin(pieces: seq<string>, sep: char)
    requires |pieces| >= 1
    requires forall i :: 0 <= i < |pieces| ==> sep !in pieces[i]
    ensures Split(Join(pieces, sep), sep) == pieces
  {
    if |pieces| == 1 {
      SplitPrepend(pieces[0], "", sep);
      assert pieces[0] + "" == pieces[0];
    } else {
      var tail := Join(pieces[1..], sep);
      SplitJoin(pieces[1..], sep);
      assert pieces[0] + [sep] + tail == pieces[0] + ([sep] + tail);
      SplitPrepend(pieces[0], [sep] + tail, sep);
      assert ([sep] + tail)[1..] == tail;
      assert Split([sep] + tail, sep) == [""] + Split(tail, sep);
      calc {
        Split(Join(pieces, sep), sep);
        Split(pieces[0] + ([sep] + tail), sep);
        [pieces[0] + Split([sep] + tail, sep)[0]] + Split([sep] + tail, sep)[1..];
        [pieces[0] + ""] + pieces[1..];
        { assert pieces[0] + "" == pieces[0]; }
        [pieces[0]] + pieces[1..];
        pieces;
      }
    }
  }

  /** `b.join(s.split(a))` replaces every `a` by `b`. */
  lemma {:induction false} JoinSplitIsReplace(s: string, a: char, b: char)
    ensures Join(Split(s, a), b) == Replace(s, a, b)
  {
    if s != [] {
      var rest := Split(s[1..], a);
      JoinSplitIsReplace(s[1..], a, b);
      if s[0] == a {
        assert ([""] + rest)[1..] == rest;
        if |rest| == 1 {
          assert Join([""] + rest, b) == "" + [b] + rest[0];
        }
      } else {
        JoinConsHead(s[0], rest, b);
      }
    }
  }

  /**
   * Python's `str.lower()` on one character, for the scripts the data is
   * written in: ASCII `A`-`Z` and Cyrillic U+0400..U+042F; every other
   * character is returned unchanged.
   */
  function LowerChar(c: char): char
  {
    if 'A' <= c <= 'Z' then (c as int + 32) as char
    else if 'А' <= c <= 'Я' then (c as int + 32) as char
    else if 'Ѐ' <= c <= 'Џ' then (c as int + 80) as char
    else c
  }

  /** An upper-case letter of the scripts `LowerChar` handles. */
  predicate IsUpper(c: char)
  {
    'A' <= c <= 'Z' || 'А' <= c <= 'Я' || 'Ѐ' <= c <= 'Џ'
  }

  /**
   * Python's `s.lower()`, character by character with `LowerChar`: no
   * upper-case letter is left, and every other character stays where it was.
   */
  function Lower(s: string): (r: string)
    ensures |r| == |s|
    ensures forall i :: 0 <= i < |r| ==> !IsUpper(r[i])
    ensures forall i :: 0 <= i < |s| && !IsUpper(s[i]) ==> r[i] == s[i]
  {
    seq(|s|, i requires 0 <= i < |s| => LowerChar(s[i]))
  }

  lemma LowerAppend(a: string, b: string)
    ensures Lower(a + b) == Lower(a) + Lower(b)
  {
  }

  /** `needle` occurs in `hay` starting at position `i`. */
  predicate OccursAt(hay: string, needle: string, i: int)
  {
    0 <= i && i + |needle| <= |hay| && hay[i..i + |needle|] == needle
  }

  /** Python's `needle in hay` on strings: a substring test. */
  predicate Contains(hay: string, needle: string)
  {
    exists i :: 0 <= i <= |hay| - |needle| && OccursAt(hay, needle, i)
  }

  /** A substring of a substring is a substring. */
  lemma ContainsTransitive(hay: string, mid: string, needle: string)
    requires Contains(hay, mid) && Contains(mid, needle)
    ensures Contains(hay, needle)
  {
    var i :| 0 <= i <= |hay| - |mid| && OccursAt(hay, mid, i);
    var j :| 0 <= j <= |mid| - |needle| && OccursAt(mid, needle, j);
    forall k | 0 <= k < |needle|
      ensures hay[i + j + k] == needle[k]
    {
      assert mid[j + k] == needle[k];
      assert hay[i + (j + k)] == mid[j + k];
    }
    assert hay[i + j..i + j + |needle|] == needle;
    assert OccursAt(hay, needle, i + j);
  }
}

=== FILE: wrappers.dfy ===
/** The optional value used wherever the source returns or holds `None`. */
module Wrappers {

  datatype Option<+T> = None | Some(value: T)
}
